=== FILE: README.md ===
# Kinesis Video Streams WebRTC signaling client — a Dafny model

This project models the core of the Kinesis Video Streams WebRTC SDK for
JavaScript. It covers three parts:

- the `SignalingClient`, which opens a WebSocket to the signaling channel,
  relays SDP offers, SDP answers and ICE candidates, and holds back a peer's
  ICE candidates until that peer's SDP has arrived;
- the `SigV4RequestSigner`, which builds the AWS Signature Version 4
  pre-signed `wss://` URL the client connects to;
- the two validation helpers, `validateValueNonNil` and `validateValueNil`.

The model is purely functional. A client is an immutable `Signaling.Client`.
Every public method and every WebSocket handler becomes a function that
returns a `Step`: the next client, the events emitted (`open`, `sdpOffer`,
`sdpAnswer`, `iceCandidate`, `close`, `error`) and the commands for the
transport (open a WebSocket on a URL, close it). `open` is split at its one
`await`. `Signaling.Open` runs up to the signing request, and
`Signaling.ResumeOpen` continues once the signer answers. Any interleaving of
user calls, signer answers and WebSocket events is therefore a sequence of
these functions.

The foreign parts are parameters, not definitions:

- SHA-256, HMAC-SHA-256, hex rendering and `encodeURIComponent` are fields of
  `SigV4.Primitives`;
- `JSON.parse`/`atob` and `btoa`/`JSON.stringify` are fields of
  `Signaling.Codec`;
- the clock enters as the ISO datetime string the signer is given.

JavaScript objects used as maps become `JsObject.Props`. These are property
lists with distinct names, kept in creation order, with the semantics of
property assignment and `Object.assign`. That makes "the canonical query
string does not depend on the order in which parameters were added" a
theorem here rather than an assumption.

Modules:

| file | module | contents |
|---|---|---|
| wrappers.dfy | Wrappers | `Option`, `Result` |
| strings.dfy | Strings | `indexOf`, `Array.join`, `split`, lexicographic order |
| sorting.dfy | Sorting | insertion sort of names, uniqueness of a sorted arrangement |
| jsobject.dfy | JsObject | property lists, assignment, `Object.assign` |
| validation.dfy | Validation | `null` / `undefined` / present values and the two validators |
| sigv4.dfy | SigV4 | endpoint split, canonical request, string to sign, signing key, signed URL |
| events.dfy | Events | the events the client emits |
| iceledger.dfy | IceLedger | pending ICE candidates and the record of peers whose SDP was seen |
| signaling.dfy | Signaling | configuration, ready states, open/close, handlers, sending |

## Model

All source paths are in `examples/kvs-webrtc.js`, the bundled SDK.

| member | source | states |
|---|---|---|
| Validation.ValidateValueNonNil | examples/kvs-webrtc.js:1387-1397 | Accepts a value exactly when it is not null, not undefined and not the empty string. Each rejection names which of the three it was, checked in that order. |
| Validation.ValidateValueNil | examples/kvs-webrtc.js:1403-1407 | Accepts a value exactly when it is null, undefined or the empty string; anything else is rejected as "should be null". |
| Signaling.NewClient | examples/kvs-webrtc.js:850-884 | The constructor succeeds exactly when the configuration has a role, has a client id iff the role is VIEWER, has a channel ARN, region and endpoint, and has either a request signer or credentials with both keys. A new client is CLOSED, holds no WebSocket and has an empty ICE ledger. A supplied signer is used as given. Otherwise the built-in signer has the configured region, the Kinesis Video service, both keys and the session token exactly when one was given. A failing configuration gets the error of the first failing check, in the source's order: the role (`null` or `undefined`), the client id (required of a VIEWER, refused from a MASTER), the channel ARN, the region, the endpoint, and then, without a request signer, the credentials, the access key id and the secret access key. |
| Signaling.Open | examples/kvs-webrtc.js:889-916 | `open` throws unless the client is CLOSED. Otherwise the client becomes CONNECTING and asks for the channel endpoint to be signed with exactly the parameters `X-Amz-ChannelARN`, plus `X-Amz-ClientId` for a VIEWER only, in that order and with the configured values. |
| Signaling.SignWithSigV4 | examples/kvs-webrtc.js:916 | The built-in signer answers with the URL `getSignedURL` returns, or with the text of the error it throws when it rejects the endpoint. |
| Signaling.ResumeOpen | examples/kvs-webrtc.js:917-928 | A signing failure goes to `onError` and changes nothing else. A signed URL opens a WebSocket only when the client is still CONNECTING and holds none. Otherwise the answer is dropped silently: no state change, no event, no command, so no second connection is ever opened. An existing handle is never replaced, and the reachable-state invariant is kept. This is the corrected re-check; see Findings. |
| Signaling.ResumeOpenAsWritten | examples/kvs-webrtc.js:897-928 | The re-check as written. A signing failure goes to `onError` and changes nothing else. A client no longer CONNECTING drops the answer silently. A CONNECTING client opens a WebSocket on the signed URL, overwrites whatever handle it held, changes nothing else and emits nothing. |
| Signaling.AsWrittenAgreesWithoutHandle | examples/kvs-webrtc.js:918-928 | For a client that holds no WebSocket, the re-check as written and the corrected one give the same result for every signer answer. |
| Signaling.AsWrittenOverwritesHandle | examples/kvs-webrtc.js:918-928 | `open`, `close`, `open`, then two signer answers: the code as written opens two WebSockets and keeps only the second handle, while the corrected re-check keeps the first. |
| Signaling.ResumeKeepsHandle | examples/kvs-webrtc.js:918-928 | With the corrected re-check, no sequence of signer answers changes a handle once it is set. |
| Signaling.Close | examples/kvs-webrtc.js:937-945 | With a WebSocket, `close` moves to CLOSING and asks the transport to close. Without one, a client that is not yet CLOSED becomes CLOSED at once and emits `close`, and a CLOSED client is left alone. The invariant is kept. |
| Signaling.CloseWithoutSocketIdempotent | examples/kvs-webrtc.js:937-945 | Without a WebSocket, `close` ends in CLOSED and a second `close` does nothing. |
| Signaling.Deliver | examples/kvs-webrtc.js:924-927 | WebSocket events reach the handlers only while a WebSocket is attached. `open` makes the client OPEN and emits `open`. `error` is forwarded. `close` makes the client CLOSED, drops the handle and emits `close`, leaving the ledger. A message goes to `onMessage`. No handler issues a transport command, and the invariant is kept. The handlers themselves have the four rows that follow. |
| Signaling.OnOpen | examples/kvs-webrtc.js:1007-1010 | `onOpen` makes the client OPEN, changes nothing else, and emits `open`. A client with a WebSocket stays in a reachable state. |
| Signaling.OnError | examples/kvs-webrtc.js:1099-1101 | `onError` changes nothing and forwards the error as one `error` event. |
| Signaling.OnClose | examples/kvs-webrtc.js:1105-1109 | `onClose` makes the client CLOSED without a WebSocket, keeps the configuration, signer and ICE ledger, and emits `close`. The result is a reachable state whenever the ledger is well formed. |
| Signaling.CleanupWebSocket | examples/kvs-webrtc.js:994-1003 | `cleanupWebSocket` leaves no WebSocket and changes nothing else. This includes the case where none was attached, which the source returns early on. |
| Signaling.OnMessage | examples/kvs-webrtc.js:1014-1040 | An unparsable frame or payload is ignored. An SDP offer or answer is emitted first, followed by the sender's held candidates in arrival order, and the sender is marked as seen. An ICE candidate is emitted or held according to the ledger. Unknown types are ignored. Only the ledger changes. |
| Signaling.OpenConnectsToSignedEndpoint | examples/kvs-webrtc.js:889-928 | With the built-in signer and a valid endpoint, `open` followed by the signer's answer connects to the URL `getSignedURL` returns for the channel endpoint, and that URL starts with the endpoint followed by `?`. |
| Signaling.OpenSignsChannelParams | examples/kvs-webrtc.js:909-916 | The canonical parameters signed for `open` carry the channel ARN, and the client id for a VIEWER only. |
| Signaling.ConnectionLifecycle | examples/kvs-webrtc.js:889-945 | open → signed URL → WebSocket open → close → WebSocket closed returns the client to exactly its starting state, having emitted `open` and then `close`. |
| Signaling.SigningFailureNeedsClose | examples/kvs-webrtc.js:889-931 | After a signing failure, the error is emitted but the client stays CONNECTING. `open` keeps throwing until `close` brings it back to CLOSED. |
| Signaling.SdpSeenOutlivesConnection | examples/kvs-webrtc.js:1105-1109 | `onClose` does not clear the record of peers whose SDP was seen. After the WebSocket closes and the client reopens (`open`, the signed URL, the WebSocket opening), a candidate from such a peer is emitted at once. |
| Signaling.ValidateRecipientClientId | examples/kvs-webrtc.js:1088-1095 | A recipient passes exactly when the role is MASTER iff a truthy recipient id is given, with the matching error otherwise. |
| Signaling.SendMessage | examples/kvs-webrtc.js:980-990 | A frame is written exactly when the client is OPEN, the recipient suits the role, a WebSocket is attached and the payload encodes. The frame carries the action name, the encoded payload and the recipient only if it is truthy. Each failure is reported in the source's order. |
| Signaling.SendSdpOffer | examples/kvs-webrtc.js:953-955 | The sender fails exactly when `sendMessage` fails, with the same error: not OPEN, or a recipient that is missing for a MASTER or present for a VIEWER. Otherwise it writes one SDP_OFFER frame carrying the encoded offer, with the recipient id only when one is given. |
| Signaling.SendSdpAnswer | examples/kvs-webrtc.js:963-965 | The sender fails exactly when `sendMessage` fails, with the same error: not OPEN, or a recipient that is missing for a MASTER or present for a VIEWER. Otherwise it writes one SDP_ANSWER frame carrying the encoded answer, with the recipient id only when one is given. |
| Signaling.SendIceCandidate | examples/kvs-webrtc.js:973-975 | The sender fails exactly when `sendMessage` fails, with the same error: not OPEN, or a recipient that is missing for a MASTER or present for a VIEWER. Otherwise it writes one ICE_CANDIDATE frame carrying the encoded candidate, with the recipient id only when one is given. |
| Signaling.SendersAgree | examples/kvs-webrtc.js:953-975 | Each sender is `sendMessage` with its own action. The three accept and reject the same calls with the same error, and their frames differ only in the action, so no role is barred from any message type. |
| IceLedger.ClientIdKey | examples/kvs-webrtc.js:1058 | A peer's ledger key is its client id when that id is truthy, and `MASTER` otherwise; it is never empty. |
| IceLedger.EmitOrQueueIceCandidate | examples/kvs-webrtc.js:1057-1068 | A candidate from a peer whose SDP was seen is emitted at once, for every sender id (the corrected lookup; see Findings). Otherwise it is appended to that peer's queue and nothing is emitted. No other peer's queue changes, and the ledger stays well formed (every queue non-empty and belonging to an unseen peer). |
| IceLedger.EmitPendingIceCandidates | examples/kvs-webrtc.js:1072-1084 | For every sender id (the corrected lookup; see Findings), the peer is marked as seen, and its queue is removed and emitted in order, each candidate tagged with the sender id as received. Other queues are untouched and the ledger stays well formed. |
| IceLedger.EmitOrQueueAsWritten | examples/kvs-webrtc.js:1057-1068 | As written on a plain object: a sender id that names an inherited `Object.prototype` member reads as already seen, so its candidate is emitted at once. |
| IceLedger.EmitPendingAsWritten | examples/kvs-webrtc.js:1072-1084 | As written on a plain object: the flush throws exactly when the sender id names an inherited member and no queue was stored for it, because the inherited value has no `forEach`. |
| IceLedger.InheritedNameBypassesLedger | examples/kvs-webrtc.js:1057-1084 | For the sender id `constructor`, the code as written emits a candidate before any SDP and throws on the SDP. The corrected ledger holds the candidate and releases it with the SDP. |
| IceLedger.AsWrittenAgreesOnOtherNames | examples/kvs-webrtc.js:1057-1084 | For every sender id that is not an inherited name, the code as written and the corrected ledger behave identically. |
| IceLedger.CandidatesConserved | examples/kvs-webrtc.js:1057-1084 | Over any sequence of arrivals, the candidates a peer has released, followed by those it still holds, are exactly those it held at the start followed by those that arrived, in order. No candidate is lost, duplicated or reordered. |
| IceLedger.SeenIffDescription | examples/kvs-webrtc.js:1075 | A peer is marked as seen after a sequence of arrivals iff it was seen before or one of the arrivals was its SDP. |
| IceLedger.NothingReleasedBeforeDescription | examples/kvs-webrtc.js:1059-1067 | An unseen peer has none of its candidates emitted until its SDP arrives. |
| IceLedger.HeldUntilDescription | examples/kvs-webrtc.js:1057-1068 | Until an unseen peer's SDP arrives, its queue is its old queue followed by every candidate it sent, so none has been emitted. |
| IceLedger.ReleasedInArrivalOrder | examples/kvs-webrtc.js:1072-1084 | When an unseen peer's SDP arrives, the events emitted are exactly that peer's held candidates followed by those that arrived meanwhile, in arrival order. |
| SigV4.SplitEndpoint | examples/kvs-webrtc.js:1192-1206 | An endpoint is rejected exactly when it does not start with `wss://` or contains `?`, with the matching error. Otherwise the host has no `/` or `?` and the path starts with `/`. The endpoint is `wss://` + host + path, or `wss://` + host when the path is the default `/`. |
| SigV4.SplitEndpointRecovers | examples/kvs-webrtc.js:1198-1206 | Any host without `/` followed by any path starting with `/` is split back into exactly that host and path. |
| SigV4.SplitEndpointNoPath | examples/kvs-webrtc.js:1198-1202 | An endpoint with no path gets host = everything after `wss://` and path `/`. |
| SigV4.GetDateString | examples/kvs-webrtc.js:1309-1311 | The date stamp is the first eight characters of the datetime stamp, or all of it when shorter. |
| SigV4.CredentialScopeParts | examples/kvs-webrtc.js:1209 | The credential scope splits on `/` back into date, region, service and `aws4_request`. |
| SigV4.CanonicalQueryParamsContents | examples/kvs-webrtc.js:1210-1221 | The canonical parameters hold the algorithm, `accessKeyId/scope` as the credential, the datetime, expiry `299` and signed headers `host`. The session token is added only when it is truthy. Every other name keeps the caller's value, and the authentication parameters override the caller's. |
| SigV4.CreateQueryString | examples/kvs-webrtc.js:1289-1294 | The query string renders `name=encodeURIComponent(value)` for the names in ascending order, joined by `&`. Any strictly ascending arrangement of the names gives the same string. |
| SigV4.QueryStringIgnoresCreationOrder | examples/kvs-webrtc.js:1289-1294 | Two objects with the same name→value mapping give the same query string, whatever order their properties were created in. |
| SigV4.HostHeaderString | examples/kvs-webrtc.js:1281-1285 | The canonical headers of the single `host` header are `host:<host>\n`. |
| SigV4.CanonicalRequestLines | examples/kvs-webrtc.js:1230 | The canonical request splits into GET, path, query string, `host:<host>`, an empty line, `host` and the payload hash. This is the blank line after the headers that Signature Version 4 prescribes, and it comes from the trailing newline of the headers string. |
| SigV4.StringToSignLines | examples/kvs-webrtc.js:1234 | The string to sign splits into `AWS4-HMAC-SHA256`, datetime, scope and request hash. |
| SigV4.SignatureKeyIsChain | examples/kvs-webrtc.js:1258-1277 | The signing key is the HMAC chain seeded with `AWS4` + secret key over date, region, service and `aws4_request`. |
| SigV4.Sign | examples/kvs-webrtc.js:1181-1249 | Signing fails exactly when the endpoint split fails, with the same error. Otherwise the host and path are those the endpoint splits into, and the URL is `wss://` + host + path + `?` + the query string of the canonical parameters plus the signature. |
| SigV4.SignatureCoversUrl | examples/kvs-webrtc.js:1207-1247 | For any endpoint that passes validation, the host and path are those of the endpoint, the URL's parameters are the canonical ones plus `X-Amz-Signature`. The canonical request covers exactly those canonical parameters and the URL's host. The signature is the HMAC of the string to sign under the key chain over date, region, service and `aws4_request`. |
| SigV4.GetSignedURL | examples/kvs-webrtc.js:1181-1249 | `getSignedURL` rejects exactly the endpoints that do not start with `wss://` or that contain `?`, each with its own error naming the endpoint (the error the split gives). Every URL it returns starts with `wss://` and is the URL `SigV4.Sign` builds. |
| SigV4.SignedUrlExtendsEndpoint | examples/kvs-webrtc.js:1198-1247 | For a valid endpoint, the signed URL is the endpoint itself (with `/` appended when it has no path), then `?`, then the query string of the canonical parameters plus the signature. |
| SigV4.SignedUrlStartsWithEndpoint | examples/kvs-webrtc.js:1198-1247 | A valid endpoint is always signed, and the signed URL starts with the endpoint (with `/` when it has no path) followed by `?`. |
| SigV4.CallerParamSigned | examples/kvs-webrtc.js:1210-1221 | A caller's parameter that is neither an authentication parameter nor the session token keeps the caller's value in the canonical parameters. |
| SigV4.RejectsBeforeHashing | examples/kvs-webrtc.js:1192-1197 | A rejected endpoint is rejected whatever primitives are supplied: validation happens before any hashing. |
| JsObject.Set | examples/kvs-webrtc.js:1243-1245 | Assigning a property makes it hold the new value and leaves every other name's value unchanged. |
| JsObject.AssignGet | examples/kvs-webrtc.js:1210-1221 | After `Object.assign(target, source)`, a name holds the source's value if the source has it, and the target's value otherwise. |
| Sorting.Sort | examples/kvs-webrtc.js:1291 | The sorted names are strictly ascending and are the same names as the input. When no name repeats, as in the result of `Object.keys`, none is lost: the result has as many names as the input. |
| Sorting.AscendingUnique | examples/kvs-webrtc.js:1291 | Two strictly ascending sequences with the same elements are equal, so the sort's result does not depend on its input order. |
| Strings.IndexOf | examples/kvs-webrtc.js:1198 | `indexOf(c, from)` returns -1 exactly when `c` does not occur from `from` on, and otherwise returns the first such position. |
| Strings.SplitJoin | examples/kvs-webrtc.js:1230 | Joining parts that do not contain the separator, then splitting on it, gives back the parts. |

## Left out

- Cryptography: SHA-256, HMAC-SHA-256, `toHex`, `toUint8Array` and the Web Crypto calls are uninterpreted parameters (`SigV4.Primitives`). No known-answer vector is checked, because the model has no hash to run.
- Codecs: `JSON.parse`, `atob`, `btoa`, `JSON.stringify`, `encodeURIComponent` are parameters (`Signaling.Codec`, `SigV4.Primitives`). The senders take the result of the payload's `toJSON()` directly as an opaque `Payload`. The source calls `toJSON()` (for example `sdpOffer.toJSON()` at line 954) before `sendMessage` checks the ready state, so a throwing `toJSON()` fails even on a client that is not OPEN. The model does not represent that failure.
- Clock: `getDateTimeString` (`Date.toISOString` and two regular-expression rewrites) is not modelled. The signer takes the datetime stamp as input, and `SigV4.GetDateString` takes its first eight characters from it.
- The event emitter and `new WebSocket(...)`: emitted events are returned as a sequence and WebSocket creation is a `Connect` command. A WebSocket constructor that throws (a malformed signed URL) is not modelled. The emitter's `emit('error')` throws when no `error` listener is registered (lines 220-241). So an `onError` from a WebSocket listener would throw, and the one from the `.catch` in `open` would become an unhandled rejection. The model always appends an `ErrorEvent`, as if a listener were registered.
- Asynchrony: promises are modelled as the split between `Signaling.Open` and `Signaling.ResumeOpen`. Microtask scheduling is not modelled.
- A supplied request signer is an opaque handle whose answer (`Ok(url)` or `Err(message)`) is an input to `Signaling.ResumeOpen`.
- A null configuration object and a role that is neither MASTER nor VIEWER are not modelled: roles are an enumeration. The constructor tests only for VIEWER (line 859), so an unknown role is checked like a MASTER and must have a nil client id (lines 862-864). When sending, `validateRecipientClientId` (lines 1088-1095) lets any recipient through for an unknown role.
- Sorting: `Array.prototype.sort` compares UTF-16 code units. The model compares Dafny characters (code points), and the two differ only for names containing characters outside the Basic Multilingual Plane.
- Property order: `Object.keys` lists integer-like names first. The model keeps plain creation order. This affects only `createHeadersString`, which is always called with the single `host` header.
- Signaling.Close: the doc comment at examples/kvs-webrtc.js:934 says no action is taken when the client is already closed or closing. In CLOSING with a WebSocket attached, the code at lines 938-940 sets CLOSING again and calls `websocket.close()` again. The model follows the code and issues a second `RequestClose`.
- Signaling.Close: neither `close` nor `onClose` clears `pendingIceCandidatesByClientId` or `hasReceivedRemoteSDPByClientId`. Those objects are created only in the constructor, at lines 854-855. The ledger therefore survives reconnection, which `Signaling.SdpSeenOutlivesConnection` states.
- Signaling.CloseWithoutSocketIdempotent: a second `close()` leaves the client CLOSED only when no WebSocket is attached. With one attached, the client stays CLOSING until the transport reports the close, and the lemma covers only the case without a WebSocket.
- Signaling.NewClient: the built-in signer is given the caller's `config.credentials` object itself (line 877), not the copy made at line 876. The source's signer therefore reads the caller's keys anew at every signing (lines 1212, 1217 and 1263), so a later change to that object takes effect at the next `open`. The model takes the values at construction and does not model this aliasing.
- IceLedger.EmitOrQueueIceCandidate: models the corrected lookup, in which every sender id starts unseen. The code as written treats sender ids that name `Object.prototype` members as already seen (see Findings; `IceLedger.EmitOrQueueAsWritten`).
- IceLedger.EmitPendingIceCandidates: models the corrected lookup, which flushes cleanly for every sender id. The code as written throws for inherited names (see Findings; `IceLedger.EmitPendingAsWritten`). Assigning to `__proto__` on a plain object, which the source would attempt for that sender id, is not modelled.
- Signaling.ResumeOpenAsWritten: the model tracks a single handle. A WebSocket whose handle was overwritten, with its listeners still attached, is not represented.
- SigV4.Sign: the `date` default of `new Date()` is not modelled, because the datetime is always an input.

## Findings

| source | as written | input that shows it | evidently intended | confidence | as-written member | corrected member |
|---|---|---|---|---|---|---|
| examples/kvs-webrtc.js:918-928 | After signing, `asyncOpen` re-checks only that the state is still CONNECTING, then assigns a new WebSocket to `this.websocket`. | `open()`, then `close()` while signing is pending (no WebSocket yet, so the client goes straight to CLOSED), then `open()` again. Both signings then complete, and both find the client CONNECTING. The first WebSocket's handle is overwritten by the second without being closed, and its listeners stay attached (the model shows the overwrite, not the leaked listeners). | At most one WebSocket per client: a stale signing must not open a second connection or drop the handle of the first. | not executed | Signaling.ResumeOpenAsWritten, Signaling.AsWrittenOverwritesHandle | Signaling.ResumeOpen, Signaling.ResumeKeepsHandle, Signaling.AsWrittenAgreesWithoutHandle |
| examples/kvs-webrtc.js:1057-1084 | Both ledgers are plain `{}` objects (lines 854-855) indexed by the sender's client id, so an id such as `constructor` finds the inherited `Object` function. | A peer with client id `constructor` sends an ICE candidate and then an SDP offer. At line 1059 the lookup is truthy, so the candidate is emitted before any SDP. On the offer, line 1076 reads the inherited `Object` as the queue, and `forEach` at line 1081 throws a TypeError out of `onMessage` after `sdpOffer` was emitted. | Every sender id starts with no SDP seen and no queue, as with `Object.create(null)` or a `Map`. | not executed | IceLedger.EmitOrQueueAsWritten, IceLedger.EmitPendingAsWritten, IceLedger.InheritedNameBypassesLedger | IceLedger.EmitOrQueueIceCandidate, IceLedger.EmitPendingIceCandidates, IceLedger.AsWrittenAgreesOnOtherNames |

=== FILE: events.dfy ===
/** What the signaling client reports to its listeners. */
module Events {
  import opened Wrappers

  /** A decoded SDP or ICE payload: an opaque JSON value. */
  datatype Payload = Payload(json: string)

  /** The events emitted through `EventEmitter.emit`, in emission order. The
      sender is the inbound frame's `senderClientId`, as received. */
  datatype Event =
    | OpenEvent
    | SdpOffer(sdp: Payload, senderClientId: Option<string>)
    | SdpAnswer(sdp: Payload, senderClientId: Option<string>)
    | IceCandidate(candidate: Payload, senderClientId: Option<string>)
    | CloseEvent
    | ErrorEvent(error: string)
}

=== FILE: iceledger.dfy ===
/** The pending-ICE ledger of `SignalingClient`: candidates that arrive from
    a peer before its SDP offer or answer are held back, then released in
    arrival order right after that SDP. */
module IceLedger {
  import opened Wrappers
  import opened Events

  /** `SignalingClient.DEFAULT_CLIENT_ID`: the key of a sender without an id. */
  const DefaultClientId := "MASTER"

  /** `clientId || DEFAULT_CLIENT_ID`: a missing or empty sender id is falsy. */
  function ClientIdKey(clientId: Option<string>): (k: string)
    ensures k != ""
    ensures clientId.Some? && clientId.value != "" ==> k == clientId.value
    ensures clientId.None? || clientId.value == "" ==> k == DefaultClientId
  {
    if clientId.Some? && clientId.value != "" then clientId.value else DefaultClientId
  }

  /** `pendingIceCandidatesByClientId` and `hasReceivedRemoteSDPByClientId`. */
  datatype Ledger = Ledger(pending: map<string, seq<Payload>>, sdpSeen: set<string>)

  const EmptyLedger := Ledger(map[], {})

  /** A queue exists only for a sender whose SDP has not been seen, and is never empty. */
  predicate Wf(l: Ledger) {
    forall k :: k in l.pending ==> k !in l.sdpSeen && |l.pending[k]| > 0
  }

  /** The candidates held back for `key`; none when it has no queue. */
  function PendingOf(l: Ledger, key: string): seq<Payload> {
    if key in l.pending then l.pending[key] else []
  }

  datatype LedgerStep = LedgerStep(ledger: Ledger, events: seq<Event>)

  /** One `iceCandidate` event per candidate, in order, all naming `clientId`. */
  function IceEvents(candidates: seq<Payload>, clientId: Option<string>): (es: seq<Event>)
    ensures |es| == |candidates|
    ensures forall i :: 0 <= i < |es| ==> es[i] == IceCandidate(candidates[i], clientId)
  {
    seq(|candidates|, i requires 0 <= i < |candidates| => IceCandidate(candidates[i], clientId))
  }

  /** `emitOrQueueIceCandidate`. */
  function EmitOrQueueIceCandidate(l: Ledger, candidate: Payload, clientId: Option<string>): (r: LedgerStep)
    ensures ClientIdKey(clientId) in l.sdpSeen ==> r == LedgerStep(l, [IceCandidate(candidate, clientId)])
    ensures ClientIdKey(clientId) !in l.sdpSeen ==>
              && r.events == []
              && r.ledger.sdpSeen == l.sdpSeen
              && PendingOf(r.ledger, ClientIdKey(clientId)) == PendingOf(l, ClientIdKey(clientId)) + [candidate]
    ensures forall other :: other != ClientIdKey(clientId) ==> PendingOf(r.ledger, other) == PendingOf(l, other)
    ensures Wf(l) ==> Wf(r.ledger)
  {
    var key := ClientIdKey(clientId);
    if key in l.sdpSeen then LedgerStep(l, [IceCandidate(candidate, clientId)])
    else LedgerStep(l.(pending := l.pending[key := PendingOf(l, key) + [candidate]]), [])
  }

  /** `emitPendingIceCandidates`. */
  function EmitPendingIceCandidates(l: Ledger, clientId: Option<string>): (r: LedgerStep)
    ensures r.ledger.sdpSeen == l.sdpSeen + {ClientIdKey(clientId)}
    ensures ClientIdKey(clientId) !in r.ledger.pending
    ensures r.events == IceEvents(PendingOf(l, ClientIdKey(clientId)), clientId)
    ensures forall other :: other != ClientIdKey(clientId) ==> PendingOf(r.ledger, other) == PendingOf(l, other)
    ensures Wf(l) ==> Wf(r.ledger)
  {
    var key := ClientIdKey(clientId);
    var seen := l.sdpSeen + {key};
    if key !in l.pending then LedgerStep(l.(sdpSeen := seen), [])
    else LedgerStep(Ledger(l.pending - {key}, seen), IceEvents(l.pending[key], clientId))
  }

  /** What reaches the ledger from one inbound message. */
  datatype Arrival = CandidateArrived(candidate: Payload, clientId: Option<string>) | DescriptionArrived(clientId: Option<string>)

  /** The ledger's reaction to one arrival. */
  function Apply(l: Ledger, a: Arrival): LedgerStep {
    match a
    case CandidateArrived(c, id) => EmitOrQueueIceCandidate(l, c, id)
    case DescriptionArrived(id) => EmitPendingIceCandidates(l, id)
  }

  /** A run of arrivals, each handled by `step`, events concatenated. Facts
      about the shape of a run hold for every `step`, so their proofs need not
      look inside `Apply`. */
  function FeedWith(step: (Ledger, Arrival) -> LedgerStep, l: Ledger, arrivals: seq<Arrival>): LedgerStep
    decreases |arrivals|
  {
    if |arrivals| == 0 then LedgerStep(l, [])
    else
      var first := step(l, arrivals[0]);
      var rest := FeedWith(step, first.ledger, arrivals[1..]);
      LedgerStep(rest.ledger, first.events + rest.events)
  }

  /** The ledger's reaction to a run of arrivals, events concatenated. */
  function Feed(l: Ledger, arrivals: seq<Arrival>): LedgerStep {
    FeedWith(Apply, l, arrivals)
  }

  /** The candidate an `iceCandidate` event releases for `key`, if any. */
  function ReleasedFor(key: string, e: Event): seq<Payload> {
    if e.IceCandidate? && ClientIdKey(e.senderClientId) == key then [e.candidate] else []
  }

  /** The candidates of the `iceCandidate` events attributed to `key`, in order. */
  function IceFor(key: string, events: seq<Event>): seq<Payload>
    decreases |events|
  {
    if |events| == 0 then [] else ReleasedFor(key, events[0]) + IceFor(key, events[1..])
  }

  /** The candidate an arrival brings from `key`, if any. */
  function ArrivedFrom(key: string, a: Arrival): seq<Payload> {
    if a.CandidateArrived? && ClientIdKey(a.clientId) == key then [a.candidate] else []
  }

  /** The candidates that arrived from `key`, in order. */
  function CandidatesFrom(key: string, arrivals: seq<Arrival>): seq<Payload>
    decreases |arrivals|
  {
    if |arrivals| == 0 then [] else ArrivedFrom(key, arrivals[0]) + CandidatesFrom(key, arrivals[1..])
  }

  predicate IsDescriptionFrom(key: string, a: Arrival) {
    a.DescriptionArrived? && ClientIdKey(a.clientId) == key
  }

  /** Whether an SDP offer or answer from `key` is among the arrivals. */
  predicate DescriptionFrom(key: string, arrivals: seq<Arrival>) {
    exists i :: 0 <= i < |arrivals| && IsDescriptionFrom(key, arrivals[i])
  }

  lemma DescriptionFromCons(key: string, arrivals: seq<Arrival>)
    requires |arrivals| > 0
    ensures DescriptionFrom(key, arrivals) <==> IsDescriptionFrom(key, arrivals[0]) || DescriptionFrom(key, arrivals[1..])
  {
    if DescriptionFrom(key, arrivals[1..]) {
      var i :| 0 <= i < |arrivals[1..]| && IsDescriptionFrom(key, arrivals[1..][i]);
      assert IsDescriptionFrom(key, arrivals[i + 1]);
    }
    if DescriptionFrom(key, arrivals) && !IsDescriptionFrom(key, arrivals[0]) {
      var i :| 0 <= i < |arrivals| && IsDescriptionFrom(key, arrivals[i]);
      assert IsDescriptionFrom(key, arrivals[1..][i - 1]);
    }
  }

  lemma {:induction false} IceForAppend(key: string, a: seq<Event>, b: seq<Event>)
    ensures IceFor(key, a + b) == IceFor(key, a) + IceFor(key, b)
    decreases |a|
  {
    if |a| == 0 {
      assert a + b == b;
    } else {
      IceForAppend(key, a[1..], b);
      assert (a + b)[0] == a[0] && (a + b)[1..] == a[1..] + b;
    }
  }

  lemma {:induction false} IceForIceEvents(key: string, candidates: seq<Payload>, clientId: Option<string>)
    ensures IceFor(key, IceEvents(candidates, clientId)) == if ClientIdKey(clientId) == key then candidates else []
    decreases |candidates|
  {
    if |candidates| > 0 {
      IceForIceEvents(key, candidates[1..], clientId);
      assert IceEvents(candidates, clientId)[1..] == IceEvents(candidates[1..], clientId);
    }
  }

  lemma {:induction false} FeedWithAppend(step: (Ledger, Arrival) -> LedgerStep, l: Ledger, a: seq<Arrival>, b: seq<Arrival>)
    ensures var fa := FeedWith(step, l, a);
      var fb := FeedWith(step, fa.ledger, b);
      FeedWith(step, l, a + b) == LedgerStep(fb.ledger, fa.events + fb.events)
    decreases |a|
  {
    if |a| == 0 {
      assert a + b == b;
    } else {
      var first := step(l, a[0]);
      FeedWithAppend(step, first.ledger, a[1..], b);
      assert (a + b)[0] == a[0] && (a + b)[1..] == a[1..] + b;
    }
  }

  /** Feeding `a + b` is feeding `a`, then `b` from where `a` left the ledger. */
  lemma FeedAppend(l: Ledger, a: seq<Arrival>, b: seq<Arrival>)
    ensures var fa := Feed(l, a);
      var fb := Feed(fa.ledger, b);
      Feed(l, a + b) == LedgerStep(fb.ledger, fa.events + fb.events)
  {
    FeedWithAppend(Apply, l, a, b);
  }

  /** One arrival neither loses nor duplicates a candidate of `key`: what it
      releases for `key` plus what is then held equals what was held plus
      what arrived. */
  lemma ConservedByOneArrival(l: Ledger, a: Arrival, key: string)
    requires Wf(l)
    ensures var s := Apply(l, a);
      IceFor(key, s.events) + PendingOf(s.ledger, key) == PendingOf(l, key) + ArrivedFrom(key, a)
  {
    match a
    case CandidateArrived(c, id) =>
      var s := EmitOrQueueIceCandidate(l, c, id);
      if ClientIdKey(id) in l.sdpSeen {
        assert IceFor(key, s.events) == ReleasedFor(key, s.events[0]) + IceFor(key, []);
        if ClientIdKey(id) == key {
          assert PendingOf(l, key) == [];
        }
      }
    case DescriptionArrived(id) =>
      IceForIceEvents(key, PendingOf(l, ClientIdKey(id)), id);
  }

  lemma ApplyKeepsWf(l: Ledger, a: Arrival)
    requires Wf(l)
    ensures Wf(Apply(l, a).ledger)
  {
  }

  /** Over any run of arrivals, every candidate from a sender is either
      released for it or still held for it, in arrival order, and never both. */
  lemma {:induction false} CandidatesConserved(l: Ledger, arrivals: seq<Arrival>, key: string)
    requires Wf(l)
    ensures var s := Feed(l, arrivals);
      IceFor(key, s.events) + PendingOf(s.ledger, key) == PendingOf(l, key) + CandidatesFrom(key, arrivals)
    decreases |arrivals|
  {
    if |arrivals| > 0 {
      var first := Apply(l, arrivals[0]);
      var rest := Feed(first.ledger, arrivals[1..]);
      assert Feed(l, arrivals) == LedgerStep(rest.ledger, first.events + rest.events);
      assert CandidatesFrom(key, arrivals) == ArrivedFrom(key, arrivals[0]) + CandidatesFrom(key, arrivals[1..]);
      ConservedByOneArrival(l, arrivals[0], key);
      ApplyKeepsWf(l, arrivals[0]);
      CandidatesConserved(first.ledger, arrivals[1..], key);
      IceForAppend(key, first.events, rest.events);
      Regroup(IceFor(key, first.events), IceFor(key, rest.events), PendingOf(l, key), PendingOf(first.ledger, key),
              PendingOf(rest.ledger, key), ArrivedFrom(key, arrivals[0]), CandidatesFrom(key, arrivals[1..]));
    }
  }

  lemma Regroup<T>(released0: seq<T>, released1: seq<T>, held0: seq<T>, held1: seq<T>, held2: seq<T>, arrived0: seq<T>, arrived1: seq<T>)
    requires released0 + held1 == held0 + arrived0
    requires released1 + held2 == held1 + arrived1
    ensures (released0 + released1) + held2 == held0 + (arrived0 + arrived1)
  {
    calc {
      (released0 + released1) + held2;
      released0 + (released1 + held2);
      released0 + (held1 + arrived1);
      (released0 + held1) + arrived1;
      (held0 + arrived0) + arrived1;
    }
  }

  /** A sender is marked SDP-seen exactly when it was before or an SDP from it arrived. */
  lemma {:induction false} SeenIffDescription(l: Ledger, arrivals: seq<Arrival>, key: string)
    ensures key in Feed(l, arrivals).ledger.sdpSeen <==> key in l.sdpSeen || DescriptionFrom(key, arrivals)
    decreases |arrivals|
  {
    if |arrivals| > 0 {
      var first := Apply(l, arrivals[0]);
      SeenIffDescription(first.ledger, arrivals[1..], key);
      DescriptionFromCons(key, arrivals);
    }
  }

  lemma {:induction false} NothingReleasedBeforeDescription(l: Ledger, arrivals: seq<Arrival>, key: string)
    requires key !in l.sdpSeen
    requires !DescriptionFrom(key, arrivals)
    ensures IceFor(key, Feed(l, arrivals).events) == []
    decreases |arrivals|
  {
    if |arrivals| > 0 {
      var first := Apply(l, arrivals[0]);
      DescriptionFromCons(key, arrivals);
      NothingReleasedBeforeDescription(first.ledger, arrivals[1..], key);
      var rest := Feed(first.ledger, arrivals[1..]);
      IceForAppend(key, first.events, rest.events);
      if arrivals[0].DescriptionArrived? {
        IceForIceEvents(key, PendingOf(l, ClientIdKey(arrivals[0].clientId)), arrivals[0].clientId);
      } else {
        assert IceFor(key, first.events) == [];
      }
    }
  }

  /** Candidates from a peer whose SDP has not arrived are all still held,
      in arrival order. */
  lemma HeldUntilDescription(l: Ledger, arrivals: seq<Arrival>, key: string)
    requires Wf(l)
    requires key !in l.sdpSeen
    requires !DescriptionFrom(key, arrivals)
    ensures PendingOf(Feed(l, arrivals).ledger, key) == PendingOf(l, key) + CandidatesFrom(key, arrivals)
  {
    NothingReleasedBeforeDescription(l, arrivals, key);
    CandidatesConserved(l, arrivals, key);
  }

  /** The trickle-ICE race: whatever else happens, the candidates a peer sent
      before its SDP are released exactly when the SDP arrives, all of them,
      in arrival order. */
  lemma ReleasedInArrivalOrder(l: Ledger, arrivals: seq<Arrival>, clientId: Option<string>)
    requires Wf(l)
    requires ClientIdKey(clientId) !in l.sdpSeen
    requires !DescriptionFrom(ClientIdKey(clientId), arrivals)
    ensures Feed(l, arrivals + [DescriptionArrived(clientId)]).events
         == Feed(l, arrivals).events
            + IceEvents(PendingOf(l, ClientIdKey(clientId)) + CandidatesFrom(ClientIdKey(clientId), arrivals), clientId)
  {
    var key := ClientIdKey(clientId);
    var before := Feed(l, arrivals);
    FeedAppend(l, arrivals, [DescriptionArrived(clientId)]);
    HeldUntilDescription(l, arrivals, key);
    var last := Apply(before.ledger, DescriptionArrived(clientId));
    var run := [DescriptionArrived(clientId)];
    assert run[0] == DescriptionArrived(clientId) && run[1..] == [];
    assert FeedWith(Apply, before.ledger, run) == LedgerStep(last.ledger, last.events + []);
    assert Feed(before.ledger, [DescriptionArrived(clientId)]).events == last.events + [];
  }

  // ---------------------------------------------------------------- lookups on plain objects

  /** The names a plain `{}` answers through `Object.prototype`. Both ledgers
      are plain objects, so indexing one of them by such a name finds an
      inherited function (or, for `__proto__`, the prototype itself): a
      truthy value that was never stored. */
  const InheritedNames: set<string> := {
    "constructor", "hasOwnProperty", "isPrototypeOf", "propertyIsEnumerable",
    "toLocaleString", "toString", "valueOf", "__proto__",
    "__defineGetter__", "__defineSetter__", "__lookupGetter__", "__lookupSetter__" }

  /** `hasReceivedRemoteSDPByClientId[clientIdKey]` as written: truthy for a
      stored mark and for every inherited name. */
  predicate SeenAsWritten(l: Ledger, key: string) {
    key in l.sdpSeen || key in InheritedNames
  }

  /** `emitOrQueueIceCandidate` as written, on plain objects. */
  function EmitOrQueueAsWritten(l: Ledger, candidate: Payload, clientId: Option<string>): (r: LedgerStep)
    ensures ClientIdKey(clientId) in InheritedNames ==> r == LedgerStep(l, [IceCandidate(candidate, clientId)])
    ensures !SeenAsWritten(l, ClientIdKey(clientId)) ==> r.events == []
  {
    var key := ClientIdKey(clientId);
    if SeenAsWritten(l, key) then LedgerStep(l, [IceCandidate(candidate, clientId)])
    else LedgerStep(l.(pending := l.pending[key := PendingOf(l, key) + [candidate]]), [])
  }

  /** What `emitPendingIceCandidates` throws as written: the inherited value
      read as the queue has no `forEach`. */
  datatype FlushError = NotIterable(key: string)

  /** `emitPendingIceCandidates` as written: an inherited name with no stored
      queue reads as a truthy queue, and `forEach` on it throws. */
  function EmitPendingAsWritten(l: Ledger, clientId: Option<string>): (r: Result<LedgerStep, FlushError>)
    ensures r.Err? <==> ClientIdKey(clientId) !in l.pending && ClientIdKey(clientId) in InheritedNames
    ensures r.Err? ==> r.error == NotIterable(ClientIdKey(clientId))
  {
    var key := ClientIdKey(clientId);
    var seen := l.sdpSeen + {key};
    if key in l.pending then Ok(LedgerStep(Ledger(l.pending - {key}, seen), IceEvents(l.pending[key], clientId)))
    else if key in InheritedNames then Err(NotIterable(key))
    else Ok(LedgerStep(l.(sdpSeen := seen), []))
  }

  /** A sender id equal to an inherited name: as written its candidate is
      emitted before any SDP and its SDP makes the flush throw, while the
      ledger holds the candidate and releases it with the SDP. */
  lemma InheritedNameBypassesLedger(p: Payload)
    ensures EmitOrQueueAsWritten(EmptyLedger, p, Some("constructor")).events == [IceCandidate(p, Some("constructor"))]
    ensures EmitPendingAsWritten(EmptyLedger, Some("constructor")) == Err(NotIterable("constructor"))
    ensures var held := EmitOrQueueIceCandidate(EmptyLedger, p, Some("constructor"));
      && held.events == []
      && EmitPendingIceCandidates(held.ledger, Some("constructor")).events == [IceCandidate(p, Some("constructor"))]
  {
  }

  /** For every other sender id the code as written and the ledger agree. */
  lemma AsWrittenAgreesOnOtherNames(l: Ledger, candidate: Payload, clientId: Option<string>)
    requires ClientIdKey(clientId) !in InheritedNames
    ensures EmitOrQueueAsWritten(l, candidate, clientId) == EmitOrQueueIceCandidate(l, candidate, clientId)
    ensures EmitPendingAsWritten(l, clientId) == Ok(EmitPendingIceCandidates(l, clientId))
  {
  }
}

=== FILE: jsobject.dfy ===
/** Plain JavaScript objects with string-valued properties, as the signer
    builds them: property names are unique and kept in creation order, an
    assignment to an existing name keeps its place, and `Object.assign`
    copies the source's properties one by one. */
module JsObject {
  import opened Wrappers

  /** Name/value pairs in property creation order. */
  type Entries = seq<(string, string)>

  predicate DistinctNames(p: Entries) {
    forall i, j :: 0 <= i < j < |p| ==> p[i].0 != p[j].0
  }

  /** An object: no property name appears twice. */
  type Props = p: Entries | DistinctNames(p) witness []

  /** `Object.keys(p)`. */
  function Names(p: Entries): (r: seq<string>)
    ensures |r| == |p|
    ensures forall i :: 0 <= i < |p| ==> r[i] == p[i].0
  {
    seq(|p|, i requires 0 <= i < |p| => p[i].0)
  }

  /** `p[name]`, with `None` for a property that is not there. */
  function Get(p: Entries, name: string): Option<string>
  {
    if |p| == 0 then None
    else if p[0].0 == name then Some(p[0].1)
    else Get(p[1..], name)
  }

  /** A property is present exactly when its name is among the object's keys. */
  lemma {:induction false} GetPresent(p: Entries, name: string)
    ensures Get(p, name).Some? <==> name in Names(p)
    decreases |p|
  {
    if |p| > 0 {
      GetPresent(p[1..], name);
      assert Names(p) == [p[0].0] + Names(p[1..]);
    }
  }

  /** Each property of an object is found under its own name. */
  lemma {:induction false} GetAt(p: Props, i: nat)
    requires i < |p|
    ensures Get(p, p[i].0) == Some(p[i].1)
    decreases i
  {
    if i > 0 {
      GetAt(p[1..], i - 1);
      assert p[1..][i - 1] == p[i];
    }
  }

  /** `p[name] = value`: replaces the value in place when the name exists,
      appends a new property otherwise. */
  function Set(p: Props, name: string, value: string): (r: Props)
    ensures Get(r, name) == Some(value)
    ensures forall other :: other != name ==> Get(r, other) == Get(p, other)
  {
    SetDistinct(p, name, value);
    Put(p, name, value)
  }

  function Put(p: Entries, name: string, value: string): (r: Entries)
    ensures Get(r, name) == Some(value)
    ensures forall other :: other != name ==> Get(r, other) == Get(p, other)
    decreases |p|
  {
    if |p| == 0 then [(name, value)]
    else if p[0].0 == name then [(name, value)] + p[1..]
    else [p[0]] + Put(p[1..], name, value)
  }

  lemma PutNames(p: Entries, name: string, value: string)
    ensures forall n :: n in Names(Put(p, name, value)) <==> n == name || n in Names(p)
  {
    forall n ensures n in Names(Put(p, name, value)) <==> n == name || n in Names(p) {
      GetPresent(Put(p, name, value), n);
      GetPresent(p, n);
    }
  }

  lemma {:induction false} SetDistinct(p: Props, name: string, value: string)
    ensures DistinctNames(Put(p, name, value))
    decreases |p|
  {
    var r := Put(p, name, value);
    if |p| > 0 {
      if p[0].0 == name {
        assert r[1..] == p[1..];
      } else {
        var tail := Put(p[1..], name, value);
        SetDistinct(p[1..], name, value);
        PutNames(p[1..], name, value);
        assert r == [p[0]] + tail;
        forall j | 0 < j < |r| ensures r[j].0 != p[0].0 {
          assert r[j] == tail[j - 1];
          assert Names(tail)[j - 1] == r[j].0;
          assert r[j].0 in Names(tail);
          if r[j].0 != name {
            assert r[j].0 in Names(p[1..]);
            var m :| 0 <= m < |p[1..]| && Names(p[1..])[m] == r[j].0;
            assert p[m + 1].0 == r[j].0;
          }
        }
      }
    }
  }

  /** `Object.assign(target, source)`: every property of `source` is written
      onto `target` in order. */
  function Assign(target: Props, source: Props): (r: Props)
    decreases |source|
  {
    if |source| == 0 then target
    else Assign(Set(target, source[0].0, source[0].1), source[1..])
  }

  /** After `Object.assign`, a property holds the source's value when the
      source has it and keeps the target's value otherwise. */
  lemma {:induction false} AssignGet(target: Props, source: Props, name: string)
    ensures Get(Assign(target, source), name)
         == if Get(source, name).Some? then Get(source, name) else Get(target, name)
    decreases |source|
  {
    if |source| > 0 {
      var t' := Set(target, source[0].0, source[0].1);
      AssignGet(t', source[1..], name);
      if source[0].0 == name {
        GetPresent(source[1..], name);
        assert name !in Names(source[1..]);
      }
    }
  }
}

=== FILE: signaling.dfy ===
/** `SignalingClient`: configuration checks, the ready-state machine driven by
    `open`, `close` and the WebSocket's events, outbound message validation,
    and inbound dispatch through the pending-ICE ledger. Every operation is a
    function from the client's state to its next state, the events it emits
    and the commands it gives the transport. */
module Signaling {
  import opened Wrappers
  import opened Validation
  import opened JsObject
  import opened Events
  import opened IceLedger
  import SigV4
  import Strings

  datatype Role = MASTER | VIEWER

  datatype ReadyState = CONNECTING | OPEN | CLOSING | CLOSED

  datatype MessageType = SDP_ANSWER | SDP_OFFER | ICE_CANDIDATE

  /** The wire name of a message type: the enum's string value. */
  function ActionName(t: MessageType): string {
    match t
    case SDP_ANSWER => "SDP_ANSWER"
    case SDP_OFFER => "SDP_OFFER"
    case ICE_CANDIDATE => "ICE_CANDIDATE"
  }

  datatype RawCredentials = RawCredentials(
    accessKeyId: Nullable<string>,
    secretAccessKey: Nullable<string>,
    sessionToken: Nullable<string>)

  /** A request signer supplied by the caller: foreign code, known by a handle. */
  datatype SuppliedSigner = SuppliedSigner(handle: nat)

  /** `SignalingClientConfig` as the caller passes it. */
  datatype SignalingClientConfig = SignalingClientConfig(
    role: Nullable<Role>,
    clientId: Nullable<string>,
    channelARN: Nullable<string>,
    region: Nullable<string>,
    channelEndpoint: Nullable<string>,
    credentials: Nullable<RawCredentials>,
    requestSigner: Nullable<SuppliedSigner>)

  /** The client's copy of a configuration that passed validation. For a
      MASTER `clientId` is the nil value it was given, which is never used. */
  datatype Config = Config(role: Role, clientId: string, channelARN: string, region: string, channelEndpoint: string)

  datatype RequestSigner = Supplied(supplied: SuppliedSigner) | SigV4Signer(signer: SigV4.Signer)

  /** A WebSocket handle, opened on a signed URL. */
  datatype Socket = Socket(url: string)

  datatype Client = Client(
    config: Config,
    requestSigner: RequestSigner,
    readyState: ReadyState,
    websocket: Option<Socket>,
    ledger: Ledger)

  /** What the client asks of its transport. */
  datatype Command = Connect(url: string) | RequestClose

  /** The result of a handler: next state, emitted events, transport commands. */
  datatype Step = Step(client: Client, events: seq<Event>, commands: seq<Command>)

  /** The client's reachable states: a closed client holds no WebSocket, an
      open or closing one always does, and the ledger is well formed. */
  predicate Valid(c: Client) {
    && (c.readyState == CLOSED ==> c.websocket.None?)
    && (c.readyState == OPEN || c.readyState == CLOSING ==> c.websocket.Some?)
    && Wf(c.ledger)
  }

  // ---------------------------------------------------------------- construction

  /** The role is given, and a client id is given exactly for a VIEWER. */
  predicate IdentityPasses(config: SignalingClientConfig) {
    && !IsNil(config.role, NeverEmpty)
    && (config.role.value.VIEWER? ==> !IsNil(config.clientId, EmptyString))
    && (config.role.value.MASTER? ==> IsNil(config.clientId, EmptyString))
  }

  /** The channel ARN, region and endpoint are all given. */
  predicate ChannelPasses(config: SignalingClientConfig) {
    && !IsNil(config.channelARN, EmptyString)
    && !IsNil(config.region, EmptyString)
    && !IsNil(config.channelEndpoint, EmptyString)
  }

  /** Credentials holding both keys are given. */
  predicate CredentialsPass(config: SignalingClientConfig) {
    && !IsNil(config.credentials, NeverEmpty)
    && !IsNil(config.credentials.value.accessKeyId, EmptyString)
    && !IsNil(config.credentials.value.secretAccessKey, EmptyString)
  }

  /** What the constructor demands of its configuration. */
  predicate ValidConfig(config: SignalingClientConfig) {
    && IdentityPasses(config)
    && ChannelPasses(config)
    && (config.requestSigner.Present? || CredentialsPass(config))
  }

  function StringOf(v: Nullable<string>): string {
    if v.Present? then v.value else ""
  }

  /** The signer the constructor builds when none is supplied. */
  function SignerFromCredentials(region: string, creds: RawCredentials): SigV4.Signer {
    var token := if creds.sessionToken.Present? then Some(creds.sessionToken.value) else None;
    SigV4.NewSigner(region, SigV4.Credentials(StringOf(creds.accessKeyId), StringOf(creds.secretAccessKey), token))
  }

  /** The client a valid configuration yields. */
  function InitialClient(config: SignalingClientConfig): Client
    requires ValidConfig(config)
  {
    var cfg := Config(config.role.value, StringOf(config.clientId), config.channelARN.value,
                      config.region.value, config.channelEndpoint.value);
    var signer := if config.requestSigner.Present? then Supplied(config.requestSigner.value)
                  else SigV4Signer(SignerFromCredentials(config.region.value, config.credentials.value));
    Client(cfg, signer, CLOSED, None, EmptyLedger)
  }

  /** The constructor: each check in the source's order, the first failure thrown. */
  function NewClient(config: SignalingClientConfig): (r: Result<Client, ValidationError>)
    ensures r.Ok? <==> ValidConfig(config)
    ensures r.Ok? ==> Valid(r.value) && r.value.readyState == CLOSED && r.value.websocket.None?
                      && r.value.ledger == EmptyLedger
    ensures r.Ok? ==> r.value.config.role == config.role.value
                      && r.value.config.channelARN == config.channelARN.value
                      && r.value.config.channelEndpoint == config.channelEndpoint.value
                      && (config.role.value.VIEWER? ==> r.value.config.clientId == config.clientId.value)
    ensures r.Ok? && config.requestSigner.Present? ==> r.value.requestSigner == Supplied(config.requestSigner.value)
    ensures r.Ok? && !config.requestSigner.Present? ==>
      var creds := config.credentials.value;
      && r.value.requestSigner.SigV4Signer?
      && r.value.requestSigner.signer.region == config.region.value
      && r.value.requestSigner.signer.service == SigV4.DefaultService
      && r.value.requestSigner.signer.credentials.accessKeyId == creds.accessKeyId.value
      && r.value.requestSigner.signer.credentials.secretAccessKey == creds.secretAccessKey.value
      && r.value.requestSigner.signer.credentials.sessionToken
           == (if creds.sessionToken.Present? then Some(creds.sessionToken.value) else None)
    ensures config.role.Null? ==> r == Err(CannotBeNull("role"))
    ensures config.role.Undefined? ==> r == Err(CannotBeUndefined("role"))
    ensures (config.role.Present? && config.role.value.VIEWER? && IsNil(config.clientId, EmptyString))
              ==> r == Err(ValidateValueNonNil(config.clientId, "clientId", EmptyString).value)
    ensures (config.role.Present? && config.role.value.MASTER? && !IsNil(config.clientId, EmptyString))
              ==> r == Err(ShouldBeNull("clientId"))
    ensures (IdentityPasses(config) && IsNil(config.channelARN, EmptyString))
              ==> r == Err(ValidateValueNonNil(config.channelARN, "channelARN", EmptyString).value)
    ensures (IdentityPasses(config) && !IsNil(config.channelARN, EmptyString) && IsNil(config.region, EmptyString))
              ==> r == Err(ValidateValueNonNil(config.region, "region", EmptyString).value)
    ensures (&& IdentityPasses(config) && !IsNil(config.channelARN, EmptyString) && !IsNil(config.region, EmptyString)
             && IsNil(config.channelEndpoint, EmptyString))
              ==> r == Err(ValidateValueNonNil(config.channelEndpoint, "channelEndpoint", EmptyString).value)
    ensures (IdentityPasses(config) && ChannelPasses(config) && !config.requestSigner.Present? && IsNil(config.credentials, NeverEmpty))
              ==> r == Err(ValidateValueNonNil(config.credentials, "credentials", NeverEmpty).value)
    ensures (&& IdentityPasses(config) && ChannelPasses(config) && !config.requestSigner.Present?
             && !IsNil(config.credentials, NeverEmpty) && IsNil(config.credentials.value.accessKeyId, EmptyString))
              ==> r == Err(ValidateValueNonNil(config.credentials.value.accessKeyId, "credentials.accessKeyId", EmptyString).value)
    ensures (&& IdentityPasses(config) && ChannelPasses(config) && !config.requestSigner.Present?
             && !IsNil(config.credentials, NeverEmpty) && !IsNil(config.credentials.value.accessKeyId, EmptyString)
             && IsNil(config.credentials.value.secretAccessKey, EmptyString))
              ==> r == Err(ValidateValueNonNil(config.credentials.value.secretAccessKey, "credentials.secretAccessKey", EmptyString).value)
  {
    var roleCheck := ValidateValueNonNil(config.role, "role", NeverEmpty);
    if roleCheck.Some? then Err(roleCheck.value)
    else
      var idCheck := if config.role.value.VIEWER? then ValidateValueNonNil(config.clientId, "clientId", EmptyString)
                     else ValidateValueNil(config.clientId, "clientId", EmptyString);
      if idCheck.Some? then Err(idCheck.value)
      else
        var arnCheck := ValidateValueNonNil(config.channelARN, "channelARN", EmptyString);
        if arnCheck.Some? then Err(arnCheck.value)
        else
          var regionCheck := ValidateValueNonNil(config.region, "region", EmptyString);
          if regionCheck.Some? then Err(regionCheck.value)
          else
            var endpointCheck := ValidateValueNonNil(config.channelEndpoint, "channelEndpoint", EmptyString);
            if endpointCheck.Some? then Err(endpointCheck.value)
            else if config.requestSigner.Present? then Ok(InitialClient(config))
            else
              var credsCheck := ValidateValueNonNil(config.credentials, "credentials", NeverEmpty);
              if credsCheck.Some? then Err(credsCheck.value)
              else
                var keyCheck := ValidateValueNonNil(config.credentials.value.accessKeyId, "credentials.accessKeyId", EmptyString);
                if keyCheck.Some? then Err(keyCheck.value)
                else
                  var secretCheck := ValidateValueNonNil(config.credentials.value.secretAccessKey, "credentials.secretAccessKey", EmptyString);
                  if secretCheck.Some? then Err(secretCheck.value)
                  else Ok(InitialClient(config))
  }

  // ---------------------------------------------------------------- open / close

  datatype StateError = AlreadyOpenOpeningOrClosing

  /** What `asyncOpen` asks the request signer to sign. */
  datatype SignRequest = SignRequest(endpoint: string, queryParams: Props)

  datatype Opening = Opening(client: Client, request: SignRequest)

  function OpenQueryParams(config: Config): Props {
    if config.role.VIEWER? then [("X-Amz-ChannelARN", config.channelARN), ("X-Amz-ClientId", config.clientId)]
    else [("X-Amz-ChannelARN", config.channelARN)]
  }

  /** `open`, up to the point where `asyncOpen` waits for the signed URL. */
  function Open(c: Client): (r: Result<Opening, StateError>)
    ensures r.Err? <==> c.readyState != CLOSED
    ensures r.Ok? ==> r.value.client == c.(readyState := CONNECTING)
    ensures r.Ok? ==> r.value.request.endpoint == c.config.channelEndpoint
    ensures r.Ok? ==> Names(r.value.request.queryParams)
                      == if c.config.role.VIEWER? then ["X-Amz-ChannelARN", "X-Amz-ClientId"] else ["X-Amz-ChannelARN"]
    ensures r.Ok? ==> Get(r.value.request.queryParams, "X-Amz-ChannelARN") == Some(c.config.channelARN)
    ensures r.Ok? ==> Get(r.value.request.queryParams, "X-Amz-ClientId")
                      == if c.config.role.VIEWER? then Some(c.config.clientId) else None
    ensures r.Ok? && Valid(c) ==> Valid(r.value.client)
  {
    if c.readyState != CLOSED then Err(AlreadyOpenOpeningOrClosing)
    else Ok(Opening(c.(readyState := CONNECTING), SignRequest(c.config.channelEndpoint, OpenQueryParams(c.config))))
  }

  /** The SigV4 signer's answer to a sign request; a rejection becomes the error message. */
  function SignWithSigV4(prims: SigV4.Primitives, signer: SigV4.Signer, request: SignRequest, datetime: string): (r: Result<string, string>)
    ensures r.Err? <==> SigV4.GetSignedURL(prims, signer, request.endpoint, request.queryParams, datetime).Err?
    ensures r.Ok? ==> r.value == SigV4.GetSignedURL(prims, signer, request.endpoint, request.queryParams, datetime).value
    ensures r.Err? ==> r.error == SigV4.ErrorMessage(SigV4.GetSignedURL(prims, signer, request.endpoint, request.queryParams, datetime).error)
  {
    match SigV4.GetSignedURL(prims, signer, request.endpoint, request.queryParams, datetime)
    case Ok(url) => Ok(url)
    case Err(e) => Err(SigV4.ErrorMessage(e))
  }

  /** The rest of `asyncOpen` once the signer has answered. A rejection goes
      to `onError`. A client that is no longer connecting, or that already
      holds a WebSocket, opens nothing. */
  function ResumeOpen(c: Client, signed: Result<string, string>): (r: Step)
    ensures signed.Err? ==> r == Step(c, [ErrorEvent(signed.error)], [])
    ensures (signed.Ok? && c.readyState == CONNECTING && c.websocket.None?)
              ==> r == Step(c.(websocket := Some(Socket(signed.value))), [], [Connect(signed.value)])
    ensures c.readyState != CONNECTING ==> r.client == c && r.commands == []
    ensures signed.Ok? && (c.readyState != CONNECTING || c.websocket.Some?) ==> r == Step(c, [], [])
    ensures c.websocket.Some? ==> r.client.websocket == c.websocket
    ensures Valid(c) ==> Valid(r.client)
  {
    match signed
    case Err(e) => OnError(c, e)
    case Ok(url) =>
      if c.readyState != CONNECTING || c.websocket.Some? then Step(c, [], [])
      else Step(c.(websocket := Some(Socket(url))), [], [Connect(url)])
  }

  /** `close`. */
  function Close(c: Client): (r: Step)
    ensures c.websocket.Some? ==> r == Step(c.(readyState := CLOSING), [], [RequestClose])
    ensures (c.websocket.None? && c.readyState != CLOSED)
              ==> r.client == c.(readyState := CLOSED) && r.events == [CloseEvent] && r.commands == []
    ensures c.websocket.None? && c.readyState == CLOSED ==> r == Step(c, [], [])
    ensures Valid(c) ==> Valid(r.client)
  {
    if c.websocket.Some? then Step(c.(readyState := CLOSING), [], [RequestClose])
    else if c.readyState != CLOSED then OnClose(c)
    else Step(c, [], [])
  }

  /** `close` needs no transport to finish when no WebSocket exists, and a
      second call changes nothing and emits nothing. */
  lemma CloseWithoutSocketIdempotent(c: Client)
    requires c.websocket.None?
    ensures Close(c).client.readyState == CLOSED
    ensures Close(Close(c).client) == Step(Close(c).client, [], [])
  {
  }

  // ---------------------------------------------------------------- WebSocket handlers

  /** `cleanupWebSocket`: the listeners go and the handle is dropped. */
  function CleanupWebSocket(c: Client): (r: Client)
    ensures r.websocket.None?
    ensures r.(websocket := c.websocket) == c
  {
    c.(websocket := None)
  }

  /** `onOpen`. */
  function OnOpen(c: Client): (r: Step)
    ensures r.client.readyState == OPEN && r.client.(readyState := c.readyState) == c
    ensures r.events == [OpenEvent] && r.commands == []
    ensures Valid(c) && c.websocket.Some? ==> Valid(r.client)
  {
    Step(c.(readyState := OPEN), [OpenEvent], [])
  }

  /** `onError`. */
  function OnError(c: Client, error: string): (r: Step)
    ensures r.client == c
    ensures r.events == [ErrorEvent(error)] && r.commands == []
  {
    Step(c, [ErrorEvent(error)], [])
  }

  /** `onClose`: the ledger is left as it is. */
  function OnClose(c: Client): (r: Step)
    ensures r.client.readyState == CLOSED && r.client.websocket.None?
    ensures r.client.(readyState := c.readyState, websocket := c.websocket) == c
    ensures r.events == [CloseEvent] && r.commands == []
    ensures Wf(c.ledger) ==> Valid(r.client)
  {
    Step(CleanupWebSocket(c.(readyState := CLOSED)), [CloseEvent], [])
  }

  /** The fields of an inbound frame the client reads. */
  datatype InboundMessage = InboundMessage(
    messageType: Option<string>,
    messagePayload: Option<string>,
    senderClientId: Option<string>)

  /** The foreign codecs: `JSON.parse` of a frame, `JSON.parse(atob(...))` of
      a payload, and `btoa(JSON.stringify(...))`; `None` where they throw. */
  datatype Codec = Codec(
    parseFrame: string -> Option<InboundMessage>,
    decodePayload: string -> Option<Payload>,
    encodePayload: Payload -> Option<string>)

  /** The parsed frame and its decoded payload, or `None` when either parse throws
      (a frame without a payload fails to decode). */
  function Decode(codec: Codec, data: string): Option<(InboundMessage, Payload)> {
    match codec.parseFrame(data)
    case None => None
    case Some(m) =>
      if m.messagePayload.None? then None
      else match codec.decodePayload(m.messagePayload.value)
        case None => None
        case Some(p) => Some((m, p))
  }

  /** `onMessage`. */
  function OnMessage(c: Client, codec: Codec, data: string): (r: Step)
    ensures Decode(codec, data).None? ==> r == Step(c, [], [])
    ensures r.commands == []
    ensures r.client == c.(ledger := r.client.ledger)
    ensures Decode(codec, data).Some? ==>
      var (m, p) := Decode(codec, data).value;
      var sender := m.senderClientId;
      && (m.messageType == Some("SDP_OFFER") ==>
            && r.events == [SdpOffer(p, sender)] + IceEvents(PendingOf(c.ledger, ClientIdKey(sender)), sender)
            && r.client.ledger == EmitPendingIceCandidates(c.ledger, sender).ledger)
      && (m.messageType == Some("SDP_ANSWER") ==>
            && r.events == [SdpAnswer(p, sender)] + IceEvents(PendingOf(c.ledger, ClientIdKey(sender)), sender)
            && r.client.ledger == EmitPendingIceCandidates(c.ledger, sender).ledger)
      && (m.messageType == Some("ICE_CANDIDATE") ==>
            r == Step(c.(ledger := EmitOrQueueIceCandidate(c.ledger, p, sender).ledger),
                      EmitOrQueueIceCandidate(c.ledger, p, sender).events, []))
      && (m.messageType !in {Some("SDP_OFFER"), Some("SDP_ANSWER"), Some("ICE_CANDIDATE")} ==> r == Step(c, [], []))
    ensures Valid(c) ==> Valid(r.client)
  {
    match Decode(codec, data)
    case None => Step(c, [], [])
    case Some((m, p)) =>
      var sender := m.senderClientId;
      if m.messageType == Some("SDP_OFFER") then
        var flushed := EmitPendingIceCandidates(c.ledger, sender);
        Step(c.(ledger := flushed.ledger), [SdpOffer(p, sender)] + flushed.events, [])
      else if m.messageType == Some("SDP_ANSWER") then
        var flushed := EmitPendingIceCandidates(c.ledger, sender);
        Step(c.(ledger := flushed.ledger), [SdpAnswer(p, sender)] + flushed.events, [])
      else if m.messageType == Some("ICE_CANDIDATE") then
        var step := EmitOrQueueIceCandidate(c.ledger, p, sender);
        Step(c.(ledger := step.ledger), step.events, [])
      else Step(c, [], [])
  }

  /** What the WebSocket reports. */
  datatype TransportEvent = Opened | MessageReceived(data: string) | Errored(error: string) | Closed

  /** A WebSocket event reaches the handlers only while a WebSocket, and so
      its listeners, is attached. */
  function Deliver(c: Client, codec: Codec, event: TransportEvent): (r: Step)
    ensures c.websocket.None? ==> r == Step(c, [], [])
    ensures (c.websocket.Some? && event.Opened?) ==> r == Step(c.(readyState := OPEN), [OpenEvent], [])
    ensures (c.websocket.Some? && event.Errored?) ==> r == Step(c, [ErrorEvent(event.error)], [])
    ensures (c.websocket.Some? && event.Closed?)
              ==> r == Step(c.(readyState := CLOSED, websocket := None), [CloseEvent], [])
    ensures (c.websocket.Some? && event.MessageReceived?) ==> r == OnMessage(c, codec, event.data)
    ensures r.commands == []
    ensures Valid(c) ==> Valid(r.client)
  {
    if c.websocket.None? then Step(c, [], [])
    else match event
      case Opened => OnOpen(c)
      case MessageReceived(data) => OnMessage(c, codec, data)
      case Errored(e) => OnError(c, e)
      case Closed => OnClose(c)
  }

  // ---------------------------------------------------------------- sending

  datatype SendError =
    | NotOpen
    | MissingRecipient
    | UnexpectedRecipient
    | NoWebSocket
    | EncodingFailed

  /** The frame `sendMessage` writes to the WebSocket. */
  datatype OutboundFrame = OutboundFrame(action: string, messagePayload: string, recipientClientId: Option<string>)

  /** A recipient id counts only when it is truthy: present and non-empty. */
  predicate HasRecipient(recipient: Option<string>) {
    recipient.Some? && recipient.value != ""
  }

  /** `validateRecipientClientId`: `None` when the recipient suits the role. */
  function ValidateRecipientClientId(role: Role, recipient: Option<string>): (r: Option<SendError>)
    ensures r.None? <==> (role.MASTER? <==> HasRecipient(recipient))
    ensures role.MASTER? && !HasRecipient(recipient) ==> r == Some(MissingRecipient)
    ensures role.VIEWER? && HasRecipient(recipient) ==> r == Some(UnexpectedRecipient)
  {
    if role.MASTER? && !HasRecipient(recipient) then Some(MissingRecipient)
    else if role.VIEWER? && HasRecipient(recipient) then Some(UnexpectedRecipient)
    else None
  }

  /** `sendMessage`: the one frame written, or what is thrown (and nothing written). */
  function SendMessage(c: Client, codec: Codec, action: MessageType, payload: Payload, recipient: Option<string>): (r: Result<OutboundFrame, SendError>)
    ensures c.readyState != OPEN ==> r == Err(NotOpen)
    ensures c.readyState == OPEN && c.config.role.MASTER? && !HasRecipient(recipient) ==> r == Err(MissingRecipient)
    ensures c.readyState == OPEN && c.config.role.VIEWER? && HasRecipient(recipient) ==> r == Err(UnexpectedRecipient)
    ensures r.Ok? <==> (&& c.readyState == OPEN
                        && (c.config.role.MASTER? <==> HasRecipient(recipient))
                        && c.websocket.Some?
                        && codec.encodePayload(payload).Some?)
    ensures r.Ok? ==> r.value == OutboundFrame(ActionName(action), codec.encodePayload(payload).value,
                                               if HasRecipient(recipient) then recipient else None)
    ensures (Valid(c) && c.readyState == OPEN && (c.config.role.MASTER? <==> HasRecipient(recipient)))
              ==> r.Ok? || r == Err(EncodingFailed)
  {
    if c.readyState != OPEN then Err(NotOpen)
    else
      var check := ValidateRecipientClientId(c.config.role, recipient);
      if check.Some? then Err(check.value)
      else if c.websocket.None? then Err(NoWebSocket)
      else match codec.encodePayload(payload)
        case None => Err(EncodingFailed)
        case Some(encoded) => Ok(OutboundFrame(ActionName(action), encoded, if HasRecipient(recipient) then recipient else None))
  }

  /** `sendSdpOffer`: an SDP_OFFER frame carrying the encoded offer. */
  function SendSdpOffer(c: Client, codec: Codec, sdpOffer: Payload, recipient: Option<string>): (r: Result<OutboundFrame, SendError>)
    ensures r.Ok? ==> r.value.action == "SDP_OFFER" && Some(r.value.messagePayload) == codec.encodePayload(sdpOffer)
    ensures r.Ok? ==> r.value.recipientClientId == if HasRecipient(recipient) then recipient else None
    ensures r.Err? <==> SendMessage(c, codec, SDP_OFFER, sdpOffer, recipient).Err?
    ensures r.Err? ==> r.error == SendMessage(c, codec, SDP_OFFER, sdpOffer, recipient).error
  {
    SendMessage(c, codec, SDP_OFFER, sdpOffer, recipient)
  }

  /** `sendSdpAnswer`: an SDP_ANSWER frame carrying the encoded answer. */
  function SendSdpAnswer(c: Client, codec: Codec, sdpAnswer: Payload, recipient: Option<string>): (r: Result<OutboundFrame, SendError>)
    ensures r.Ok? ==> r.value.action == "SDP_ANSWER" && Some(r.value.messagePayload) == codec.encodePayload(sdpAnswer)
    ensures r.Ok? ==> r.value.recipientClientId == if HasRecipient(recipient) then recipient else None
    ensures r.Err? <==> SendMessage(c, codec, SDP_ANSWER, sdpAnswer, recipient).Err?
    ensures r.Err? ==> r.error == SendMessage(c, codec, SDP_ANSWER, sdpAnswer, recipient).error
  {
    SendMessage(c, codec, SDP_ANSWER, sdpAnswer, recipient)
  }

  /** `sendIceCandidate`: an ICE_CANDIDATE frame carrying the encoded candidate. */
  function SendIceCandidate(c: Client, codec: Codec, candidate: Payload, recipient: Option<string>): (r: Result<OutboundFrame, SendError>)
    ensures r.Ok? ==> r.value.action == "ICE_CANDIDATE" && Some(r.value.messagePayload) == codec.encodePayload(candidate)
    ensures r.Ok? ==> r.value.recipientClientId == if HasRecipient(recipient) then recipient else None
    ensures r.Err? <==> SendMessage(c, codec, ICE_CANDIDATE, candidate, recipient).Err?
    ensures r.Err? ==> r.error == SendMessage(c, codec, ICE_CANDIDATE, candidate, recipient).error
  {
    SendMessage(c, codec, ICE_CANDIDATE, candidate, recipient)
  }

  /** The three senders apply the same checks and write the same frame up to
      its action: none of them is restricted to one role. */
  lemma SendersAgree(c: Client, codec: Codec, payload: Payload, recipient: Option<string>)
    ensures SendSdpOffer(c, codec, payload, recipient).Ok? <==> SendSdpAnswer(c, codec, payload, recipient).Ok?
    ensures SendSdpAnswer(c, codec, payload, recipient).Ok? <==> SendIceCandidate(c, codec, payload, recipient).Ok?
    ensures SendSdpOffer(c, codec, payload, recipient).Ok? ==>
      && SendSdpAnswer(c, codec, payload, recipient).value
           == SendSdpOffer(c, codec, payload, recipient).value.(action := "SDP_ANSWER")
      && SendIceCandidate(c, codec, payload, recipient).value
           == SendSdpOffer(c, codec, payload, recipient).value.(action := "ICE_CANDIDATE")
    ensures SendSdpOffer(c, codec, payload, recipient).Err? ==>
      && SendSdpAnswer(c, codec, payload, recipient) == SendSdpOffer(c, codec, payload, recipient)
      && SendIceCandidate(c, codec, payload, recipient) == SendSdpOffer(c, codec, payload, recipient)
    ensures SendSdpOffer(c, codec, payload, recipient) == SendMessage(c, codec, SDP_OFFER, payload, recipient)
    ensures SendSdpAnswer(c, codec, payload, recipient) == SendMessage(c, codec, SDP_ANSWER, payload, recipient)
    ensures SendIceCandidate(c, codec, payload, recipient) == SendMessage(c, codec, ICE_CANDIDATE, payload, recipient)
  {
  }

  // ---------------------------------------------------------------- whole runs

  /** `open` with the built-in signer, end to end: the client connects to
      the URL signed for its channel endpoint, and that URL starts with the
      endpoint. */
  lemma OpenConnectsToSignedEndpoint(c: Client, prims: SigV4.Primitives, datetime: string)
    requires c.readyState == CLOSED && c.websocket.None? && c.requestSigner.SigV4Signer?
    requires Strings.StartsWith(c.config.channelEndpoint, SigV4.UrlProtocol) && '?' !in c.config.channelEndpoint
    ensures var opening := Open(c).value;
      var signer := c.requestSigner.signer;
      var signed := SigV4.GetSignedURL(prims, signer, c.config.channelEndpoint, opening.request.queryParams, datetime);
      && signed.Ok?
      && SignWithSigV4(prims, signer, opening.request, datetime) == Ok(signed.value)
      && ResumeOpen(opening.client, Ok(signed.value)).commands == [Connect(signed.value)]
      && Strings.StartsWith(signed.value, SigV4.EndpointWithPath(c.config.channelEndpoint) + "?")
  {
    var opening := Open(c).value;
    SigV4.SignedUrlStartsWithEndpoint(prims, c.requestSigner.signer, c.config.channelEndpoint, opening.request.queryParams, datetime);
  }

  /** The canonical parameters signed for `open` (`SigV4.SignatureCoversUrl`)
      carry the channel ARN and, for a VIEWER only, the client id. */
  lemma OpenSignsChannelParams(c: Client, datetime: string)
    requires c.readyState == CLOSED && c.requestSigner.SigV4Signer?
    ensures var opening := Open(c).value;
      var signer := c.requestSigner.signer;
      var scope := SigV4.CredentialScope(SigV4.GetDateString(datetime), signer.region, signer.service);
      var canonical := SigV4.CanonicalQueryParams(signer, opening.request.queryParams, datetime, scope);
      && Get(canonical, "X-Amz-ChannelARN") == Some(c.config.channelARN)
      && Get(canonical, "X-Amz-ClientId") == (if c.config.role.VIEWER? then Some(c.config.clientId) else None)
  {
    var opening := Open(c).value;
    var signer := c.requestSigner.signer;
    var params := opening.request.queryParams;
    var scope := SigV4.CredentialScope(SigV4.GetDateString(datetime), signer.region, signer.service);
    SigV4.CallerParamSigned(signer, params, datetime, scope, "X-Amz-ChannelARN");
    SigV4.CallerParamSigned(signer, params, datetime, scope, "X-Amz-ClientId");
  }

  /** The normal life of a connection: `open`, the signed URL, the WebSocket
      opening, `close`, and the WebSocket closing bring the client back to
      CLOSED with no handle, having emitted `open` then `close`. */
  lemma ConnectionLifecycle(c: Client, codec: Codec, url: string)
    requires Valid(c) && c.readyState == CLOSED
    ensures var opening := Open(c).value.client;
      var connecting := ResumeOpen(opening, Ok(url));
      var live := Deliver(connecting.client, codec, Opened);
      var closing := Close(live.client);
      var closed := Deliver(closing.client, codec, Closed);
      && connecting.commands == [Connect(url)]
      && live.client.readyState == OPEN
      && closing.client.readyState == CLOSING && closing.commands == [RequestClose]
      && closed.client == c
      && live.events + closing.events + closed.events == [OpenEvent, CloseEvent]
  {
  }

  /** When signing fails the error is emitted but the client stays
      CONNECTING: `open` keeps throwing until `close` resets it. */
  lemma SigningFailureNeedsClose(c: Client, error: string)
    requires Valid(c) && c.readyState == CLOSED
    ensures var failed := ResumeOpen(Open(c).value.client, Err(error));
      && failed.events == [ErrorEvent(error)]
      && failed.client.readyState == CONNECTING
      && Open(failed.client).Err?
      && Close(failed.client).client.readyState == CLOSED
      && Open(Close(failed.client).client).Ok?
  {
  }

  /** The ledger outlives a connection: a peer whose SDP was seen before a
      close has its candidates emitted at once after reopening, before any
      new SDP from it. */
  lemma SdpSeenOutlivesConnection(c: Client, codec: Codec, url: string, data: string)
    requires c.websocket.Some?
    requires Decode(codec, data).Some?
    requires Decode(codec, data).value.0.messageType == Some("ICE_CANDIDATE")
    requires ClientIdKey(Decode(codec, data).value.0.senderClientId) in c.ledger.sdpSeen
    ensures var closed := Deliver(c, codec, Closed).client;
      var connecting := ResumeOpen(Open(closed).value.client, Ok(url)).client;
      var reopened := Deliver(connecting, codec, Opened).client;
      var (m, p) := Decode(codec, data).value;
      && reopened.readyState == OPEN
      && Deliver(reopened, codec, MessageReceived(data)).events == [IceCandidate(p, m.senderClientId)]
  {
  }

  // ---------------------------------------------------------------- the re-check in asyncOpen

  /** `asyncOpen` after signing, as written: only the ready state is re-checked. */
  function ResumeOpenAsWritten(c: Client, signed: Result<string, string>): (r: Step)
    ensures signed.Err? ==> r == Step(c, [ErrorEvent(signed.error)], [])
    ensures signed.Ok? && c.readyState != CONNECTING ==> r == Step(c, [], [])
    ensures (signed.Ok? && c.readyState == CONNECTING)
              ==> r == Step(c.(websocket := Some(Socket(signed.value))), [], [Connect(signed.value)])
  {
    match signed
    case Err(e) => OnError(c, e)
    case Ok(url) =>
      if c.readyState != CONNECTING then Step(c, [], [])
      else Step(c.(websocket := Some(Socket(url))), [], [Connect(url)])
  }

  /** The two re-checks differ only for a client that already holds a WebSocket. */
  lemma AsWrittenAgreesWithoutHandle(c: Client, signed: Result<string, string>)
    requires c.websocket.None?
    ensures ResumeOpenAsWritten(c, signed) == ResumeOpen(c, signed)
  {
  }

  /** A MASTER configuration with a supplied signer. */
  const ExampleConfig := SignalingClientConfig(
    Present(MASTER), Undefined, Present("arn"), Present("region"), Present("wss://endpoint"),
    Undefined, Present(SuppliedSigner(0)))

  /** `open`, `close`, `open` while the first signing is in flight: both
      signings then find the client CONNECTING, so the code as written opens
      two WebSockets and overwrites the first handle, which is never closed
      and keeps its listeners; the corrected re-check keeps the first. */
  lemma AsWrittenOverwritesHandle()
    ensures var c0 := NewClient(ExampleConfig).value;
      var c1 := Open(c0).value.client;
      var c2 := Close(c1).client;
      var c3 := Open(c2).value.client;
      var first := ResumeOpenAsWritten(c3, Ok("wss://first"));
      var second := ResumeOpenAsWritten(first.client, Ok("wss://second"));
      && first.commands == [Connect("wss://first")]
      && second.commands == [Connect("wss://second")]
      && second.client.websocket == Some(Socket("wss://second"))
      && ResumeOpen(first.client, Ok("wss://second")) == Step(first.client, [], [])
  {
  }

  /** The client after the signer answers each of several pending opens in turn. */
  function ResumeAll(c: Client, signed: seq<Result<string, string>>): Client
    decreases |signed|
  {
    if |signed| == 0 then c else ResumeAll(ResumeOpen(c, signed[0]).client, signed[1..])
  }

  /** The corrected re-check: however signings interleave, a handle, once
      set, is kept until `onClose` drops it. */
  lemma {:induction false} ResumeKeepsHandle(c: Client, signed: seq<Result<string, string>>)
    requires c.websocket.Some?
    ensures ResumeAll(c, signed).websocket == c.websocket
  {
    if |signed| > 0 {
      ResumeKeepsHandle(ResumeOpen(c, signed[0]).client, signed[1..]);
    }
  }
}

=== FILE: sigv4.dfy ===
/** The structural part of `SigV4RequestSigner`: AWS Signature Version 4
    query-string authentication of a secure WebSocket URL. SHA-256, HMAC,
    hex rendering and `encodeURIComponent` are left uninterpreted: they are
    fields of `Primitives`, supplied by the caller. */
module SigV4 {
  import opened Wrappers
  import opened Strings
  import opened Sorting
  import opened JsObject

  const Protocol := "wss"
  const UrlProtocol := Protocol + "://"
  const DefaultAlgorithm := "AWS4-HMAC-SHA256"
  const DefaultService := "kinesisvideo"
  const RequestType := "aws4_request"
  const KeyPrefix := "AWS4"
  const Expires := "299"
  const Method := "GET"
  /** `['host'].join(';')`: the only header signed. */
  const SignedHeaders := "host"
  const SignatureParam := "X-Amz-Signature"
  const SecurityTokenParam := "X-Amz-Security-Token"

  datatype Credentials = Credentials(accessKeyId: string, secretAccessKey: string, sessionToken: Option<string>)

  datatype Signer = Signer(region: string, credentials: Credentials, service: string)

  /** The key argument of `hmac`: a string (the seed) or the bytes of a previous HMAC. */
  datatype HmacKey = TextKey(text: string) | BufferKey(bytes: seq<bv8>)

  /** The foreign primitives: hex SHA-256 of a string, raw HMAC-SHA-256,
      hex rendering of bytes, and `encodeURIComponent`. */
  datatype Primitives = Primitives(
    sha256: string -> string,
    hmac: (HmacKey, string) -> seq<bv8>,
    toHex: seq<bv8> -> string,
    encodeUriComponent: string -> string)

  datatype EndpointError = NotSecureWebSocket(endpoint: string) | HasQueryParameters(endpoint: string)

  /** The text of the thrown `Error`. */
  function ErrorMessage(e: EndpointError): string {
    match e
    case NotSecureWebSocket(endpoint) =>
      "Endpoint '" + endpoint + "' is not a secure WebSocket endpoint. It should start with '" + UrlProtocol + "'."
    case HasQueryParameters(endpoint) =>
      "Endpoint '" + endpoint + "' should not contain any query parameters."
  }

  datatype HostAndPath = HostAndPath(host: string, path: string)

  /** `new SigV4RequestSigner(region, credentials)`: the service defaults to Kinesis Video. */
  function NewSigner(region: string, credentials: Credentials): Signer
  {
    Signer(region, credentials, DefaultService)
  }

  /** Endpoint validation and the host/path split. */
  function SplitEndpoint(endpoint: string): (r: Result<HostAndPath, EndpointError>)
    ensures r.Err? <==> !StartsWith(endpoint, UrlProtocol) || '?' in endpoint
    ensures !StartsWith(endpoint, UrlProtocol) ==> r == Err(NotSecureWebSocket(endpoint))
    ensures StartsWith(endpoint, UrlProtocol) && '?' in endpoint ==> r == Err(HasQueryParameters(endpoint))
    ensures r.Ok? ==> '/' !in r.value.host && '?' !in r.value.host && '?' !in r.value.path
    ensures r.Ok? ==> |r.value.path| > 0 && r.value.path[0] == '/'
    ensures r.Ok? ==> (endpoint == UrlProtocol + r.value.host + r.value.path
                       || (endpoint == UrlProtocol + r.value.host && r.value.path == "/"))
  {
    if !StartsWith(endpoint, UrlProtocol) then Err(NotSecureWebSocket(endpoint))
    else if '?' in endpoint then Err(HasQueryParameters(endpoint))
    else
      var n := |UrlProtocol|;
      var pathStart := IndexOf(endpoint, '/', n);
      assert endpoint == UrlProtocol + endpoint[n..];
      if pathStart < 0 then
        var host := endpoint[n..];
        assert forall k :: 0 <= k < |host| ==> host[k] == endpoint[n + k];
        Ok(HostAndPath(host, "/"))
      else
        var host := endpoint[n..pathStart];
        var path := endpoint[pathStart..];
        assert forall k :: 0 <= k < |host| ==> host[k] == endpoint[n + k];
        assert forall k :: 0 <= k < |path| ==> path[k] == endpoint[pathStart + k];
        assert endpoint[n..] == host + path;
        Ok(HostAndPath(host, path))
  }

  /** The split is the only one possible: a host without `/` followed by a
      path that starts with `/` is recovered exactly. */
  lemma SplitEndpointRecovers(host: string, path: string)
    requires '/' !in host && '?' !in host && '?' !in path
    requires |path| > 0 && path[0] == '/'
    ensures SplitEndpoint(UrlProtocol + host + path) == Ok(HostAndPath(host, path))
  {
    var e := UrlProtocol + host + path;
    var n := |UrlProtocol|;
    assert e[..n] == UrlProtocol;
    assert forall i :: n <= i < n + |host| ==> e[i] == host[i - n];
    assert e[n + |host|] == '/';
    assert IndexOf(e, '/', n) == n + |host|;
    assert e[n..n + |host|] == host;
    assert e[n + |host|..] == path;
  }

  /** An endpoint with no path gets the path `/`. */
  lemma SplitEndpointNoPath(host: string)
    requires '/' !in host && '?' !in host
    ensures SplitEndpoint(UrlProtocol + host) == Ok(HostAndPath(host, "/"))
  {
    var e := UrlProtocol + host;
    var n := |UrlProtocol|;
    assert e[..n] == UrlProtocol;
    assert forall i :: n <= i < |e| ==> e[i] == host[i - n];
    assert IndexOf(e, '/', n) == -1;
    assert e[n..] == host;
  }

  /** `getDateString`: the first eight characters of the datetime stamp
      (`substring(0, 8)`, which keeps a shorter string whole). */
  function GetDateString(datetime: string): (d: string)
    ensures |d| == if |datetime| < 8 then |datetime| else 8
    ensures datetime == d + datetime[|d|..]
  {
    if |datetime| < 8 then datetime else datetime[..8]
  }

  /** `dateString/region/service/aws4_request`. */
  function CredentialScope(dateString: string, region: string, service: string): string
  {
    Join([dateString, region, service, RequestType], "/")
  }

  /** The credential scope names its four parts unambiguously. */
  lemma CredentialScopeParts(dateString: string, region: string, service: string)
    requires '/' !in dateString && '/' !in region && '/' !in service
    ensures Split(CredentialScope(dateString, region, service), '/') == [dateString, region, service, RequestType]
  {
    SplitJoin([dateString, region, service, RequestType], '/');
  }

  /** A session token is signed only when it is truthy: present and non-empty. */
  predicate HasSessionToken(c: Credentials) {
    c.sessionToken.Some? && c.sessionToken.value != ""
  }

  /** The five parameters every signed URL carries. */
  function AuthParams(signer: Signer, datetime: string, scope: string): Props
  {
    [ ("X-Amz-Algorithm", DefaultAlgorithm),
      ("X-Amz-Credential", signer.credentials.accessKeyId + "/" + scope),
      ("X-Amz-Date", datetime),
      ("X-Amz-Expires", Expires),
      ("X-Amz-SignedHeaders", SignedHeaders) ]
  }

  /** The canonical query parameters: the caller's, overridden by the
      authentication parameters, plus the session token when there is one. */
  function CanonicalQueryParams(signer: Signer, queryParams: Props, datetime: string, scope: string): Props
  {
    var withAuth := Assign(Assign([], queryParams), AuthParams(signer, datetime, scope));
    if HasSessionToken(signer.credentials) then
      Assign(withAuth, [(SecurityTokenParam, signer.credentials.sessionToken.value)])
    else withAuth
  }

  /** What each canonical parameter holds. */
  lemma CanonicalQueryParamsContents(signer: Signer, queryParams: Props, datetime: string, scope: string, name: string)
    ensures var p := CanonicalQueryParams(signer, queryParams, datetime, scope);
      && Get(p, "X-Amz-Algorithm") == Some(DefaultAlgorithm)
      && Get(p, "X-Amz-Credential") == Some(signer.credentials.accessKeyId + "/" + scope)
      && Get(p, "X-Amz-Date") == Some(datetime)
      && Get(p, "X-Amz-Expires") == Some(Expires)
      && Get(p, "X-Amz-SignedHeaders") == Some(SignedHeaders)
      && (HasSessionToken(signer.credentials) ==> Get(p, SecurityTokenParam) == signer.credentials.sessionToken)
      && (name !in Names(AuthParams(signer, datetime, scope))
          && (name == SecurityTokenParam ==> !HasSessionToken(signer.credentials))
          ==> Get(p, name) == Get(queryParams, name))
  {
    var auth := AuthParams(signer, datetime, scope);
    var copy := Assign([], queryParams);
    var withAuth := Assign(copy, auth);
    var token: Props := if HasSessionToken(signer.credentials) then [(SecurityTokenParam, signer.credentials.sessionToken.value)] else [];
    assert CanonicalQueryParams(signer, queryParams, datetime, scope) == Assign(withAuth, token);
    forall n ensures Get(Assign(withAuth, token), n) == (if Get(token, n).Some? then Get(token, n) else Get(withAuth, n))
              && Get(withAuth, n) == (if Get(auth, n).Some? then Get(auth, n) else Get(copy, n))
              && Get(copy, n) == Get(queryParams, n) {
      AssignGet(withAuth, token, n);
      AssignGet(copy, auth, n);
      AssignGet([], queryParams, n);
    }
    GetAt(auth, 0);
    GetAt(auth, 1);
    GetAt(auth, 2);
    GetAt(auth, 3);
    GetAt(auth, 4);
    if HasSessionToken(signer.credentials) {
      GetAt(token, 0);
    } else {
      assert Get(token, SecurityTokenParam) == None;
    }
    GetPresent(auth, name);
    GetPresent(auth, SecurityTokenParam);
    assert SecurityTokenParam !in Names(auth);
    GetPresent(token, name);
    assert name != SecurityTokenParam ==> name !in Names(token);
  }

  /** `key=encodeURIComponent(value)` for each of `names`, in that order. */
  function RenderPairs(p: Props, names: seq<string>, encode: string -> string): (r: seq<string>)
    ensures |r| == |names|
    decreases |names|
  {
    if |names| == 0 then []
    else
      var value := match Get(p, names[0]) case Some(v) => v case None => "";
      [names[0] + "=" + encode(value)] + RenderPairs(p, names[1..], encode)
  }

  /** `createQueryString`: the parameters sorted by name, rendered and joined by `&`. */
  function CreateQueryString(p: Props, encode: string -> string): (r: string)
    ensures forall names :: Ascending(names) && SameElements(names, Names(p))
              ==> r == Join(RenderPairs(p, names, encode), "&")
  {
    var sorted := Sort(Names(p));
    assert forall names :: Ascending(names) && SameElements(names, Names(p)) ==> names == sorted by {
      forall names | Ascending(names) && SameElements(names, Names(p)) ensures names == sorted {
        AscendingUnique(names, sorted);
      }
    }
    Join(RenderPairs(p, sorted, encode), "&")
  }

  lemma {:induction false} RenderPairsAgree(p1: Props, p2: Props, names: seq<string>, encode: string -> string)
    requires forall n :: Get(p1, n) == Get(p2, n)
    ensures RenderPairs(p1, names, encode) == RenderPairs(p2, names, encode)
    decreases |names|
  {
    if |names| > 0 {
      RenderPairsAgree(p1, p2, names[1..], encode);
    }
  }

  /** The canonical query string depends only on which names map to which
      values, never on the order in which the properties were created. */
  lemma QueryStringIgnoresCreationOrder(p1: Props, p2: Props, encode: string -> string)
    requires forall n :: Get(p1, n) == Get(p2, n)
    ensures CreateQueryString(p1, encode) == CreateQueryString(p2, encode)
  {
    forall n ensures n in Names(p1) <==> n in Names(p2) {
      GetPresent(p1, n);
      GetPresent(p2, n);
    }
    var sorted := Sort(Names(p1));
    RenderPairsAgree(p1, p2, sorted, encode);
  }

  /** `createHeadersString`: `name:value\n` per header in creation order,
      joined by `Array.prototype.join`'s default separator `,`. */
  function CreateHeadersString(headers: Props): string
  {
    Join(seq(|headers|, i requires 0 <= i < |headers| => headers[i].0 + ":" + headers[i].1 + "\n"), ",")
  }

  /** With the single `host` header the canonical headers are one line. */
  lemma HostHeaderString(host: string)
    ensures CreateHeadersString([("host", host)]) == "host:" + host + "\n"
  {
  }

  /** The canonical request: method, path, query, headers, signed headers and
      payload hash, joined by newlines. */
  function CanonicalRequest(path: string, queryString: string, headersString: string, payloadHash: string): string
  {
    Join([Method, path, queryString, headersString, SignedHeaders, payloadHash], "\n")
  }

  /** Because the headers string ends in a newline, the canonical request has
      the blank line after the headers that Signature Version 4 prescribes. */
  lemma CanonicalRequestLines(path: string, queryString: string, host: string, payloadHash: string)
    requires '\n' !in path && '\n' !in queryString && '\n' !in host && '\n' !in payloadHash
    ensures Split(CanonicalRequest(path, queryString, CreateHeadersString([("host", host)]), payloadHash), '\n')
         == [Method, path, queryString, "host:" + host, "", SignedHeaders, payloadHash]
  {
    var lines := [Method, path, queryString, "host:" + host, "", SignedHeaders, payloadHash];
    var fields := [Method, path, queryString, "host:" + host + "\n", SignedHeaders, payloadHash];
    HostHeaderString(host);
    var tail := Join([SignedHeaders, payloadHash], "\n");
    assert Join(lines[4..], "\n") == "\n" + tail by {
      assert lines[4..][1..] == [SignedHeaders, payloadHash];
    }
    assert Join(lines[3..], "\n") == "host:" + host + "\n" + "\n" + tail by {
      assert lines[3..][1..] == lines[4..];
    }
    assert Join(fields[3..], "\n") == Join(lines[3..], "\n") by {
      assert fields[3..][1..] == [SignedHeaders, payloadHash];
    }
    assert Join(fields[2..], "\n") == Join(lines[2..], "\n") by {
      assert fields[2..][1..] == fields[3..];
      assert lines[2..][1..] == lines[3..];
    }
    assert Join(fields[1..], "\n") == Join(lines[1..], "\n") by {
      assert fields[1..][1..] == fields[2..];
      assert lines[1..][1..] == lines[2..];
    }
    assert Join(fields, "\n") == Join(lines, "\n");
    SplitJoin(lines, '\n');
  }

  /** The string to sign: algorithm, datetime, scope and request hash, joined by newlines. */
  function StringToSign(datetime: string, scope: string, requestHash: string): string
  {
    Join([DefaultAlgorithm, datetime, scope, requestHash], "\n")
  }

  lemma StringToSignLines(datetime: string, scope: string, requestHash: string)
    requires '\n' !in datetime && '\n' !in scope && '\n' !in requestHash
    ensures Split(StringToSign(datetime, scope, requestHash), '\n') == [DefaultAlgorithm, datetime, scope, requestHash]
  {
    SplitJoin([DefaultAlgorithm, datetime, scope, requestHash], '\n');
  }

  /** `getSignatureKey`: four chained HMACs seeded with `AWS4` + secret key. */
  function GetSignatureKey(prims: Primitives, signer: Signer, dateString: string): seq<bv8>
  {
    var kDate := prims.hmac(TextKey(KeyPrefix + signer.credentials.secretAccessKey), dateString);
    var kRegion := prims.hmac(BufferKey(kDate), signer.region);
    var kService := prims.hmac(BufferKey(kRegion), signer.service);
    prims.hmac(BufferKey(kService), RequestType)
  }

  /** Reference definition of a key chain: each HMAC output keys the next message. */
  function HmacChain(prims: Primitives, key: HmacKey, messages: seq<string>): seq<bv8>
    requires |messages| > 0
    decreases |messages|
  {
    var out := prims.hmac(key, messages[0]);
    if |messages| == 1 then out else HmacChain(prims, BufferKey(out), messages[1..])
  }

  lemma SignatureKeyIsChain(prims: Primitives, signer: Signer, dateString: string)
    ensures GetSignatureKey(prims, signer, dateString)
         == HmacChain(prims, TextKey(KeyPrefix + signer.credentials.secretAccessKey),
                      [dateString, signer.region, signer.service, RequestType])
  {
    var seed := TextKey(KeyPrefix + signer.credentials.secretAccessKey);
    var msgs := [dateString, signer.region, signer.service, RequestType];
    var kDate := prims.hmac(seed, dateString);
    var kRegion := prims.hmac(BufferKey(kDate), signer.region);
    var kService := prims.hmac(BufferKey(kRegion), signer.service);
    calc {
      HmacChain(prims, seed, msgs);
      { assert msgs[1..] == [signer.region, signer.service, RequestType]; }
      HmacChain(prims, BufferKey(kDate), [signer.region, signer.service, RequestType]);
      { assert [signer.region, signer.service, RequestType][1..] == [signer.service, RequestType]; }
      HmacChain(prims, BufferKey(kRegion), [signer.service, RequestType]);
      { assert [signer.service, RequestType][1..] == [RequestType]; }
      HmacChain(prims, BufferKey(kService), [RequestType]);
      prims.hmac(BufferKey(kService), RequestType);
    }
  }

  /** Every intermediate value of one signing. */
  datatype Signing = Signing(
    host: string,
    path: string,
    scope: string,
    canonicalParams: Props,
    canonicalRequest: string,
    stringToSign: string,
    signature: string,
    url: string)

  /** `getSignedURL` with its intermediate values. */
  function Sign(prims: Primitives, signer: Signer, endpoint: string, queryParams: Props, datetime: string): (r: Result<Signing, EndpointError>)
    ensures r.Err? <==> SplitEndpoint(endpoint).Err?
    ensures SplitEndpoint(endpoint).Err? ==> r == Err(SplitEndpoint(endpoint).error)
    ensures r.Ok? ==> SplitEndpoint(endpoint) == Ok(HostAndPath(r.value.host, r.value.path))
    ensures r.Ok? ==> r.value.url == UrlProtocol + r.value.host + r.value.path + "?"
                        + CreateQueryString(Set(r.value.canonicalParams, SignatureParam, r.value.signature), prims.encodeUriComponent)
  {
    match SplitEndpoint(endpoint)
    case Err(e) => Err(e)
    case Ok(hp) =>
      var dateString := GetDateString(datetime);
      var scope := CredentialScope(dateString, signer.region, signer.service);
      var params := CanonicalQueryParams(signer, queryParams, datetime, scope);
      var queryString := CreateQueryString(params, prims.encodeUriComponent);
      var headersString := CreateHeadersString([("host", hp.host)]);
      var canonicalRequest := CanonicalRequest(hp.path, queryString, headersString, prims.sha256(""));
      var stringToSign := StringToSign(datetime, scope, prims.sha256(canonicalRequest));
      var signature := prims.toHex(prims.hmac(BufferKey(GetSignatureKey(prims, signer, dateString)), stringToSign));
      var signed := Set(params, SignatureParam, signature);
      var url := Protocol + "://" + hp.host + hp.path + "?" + CreateQueryString(signed, prims.encodeUriComponent);
      Ok(Signing(hp.host, hp.path, scope, params, canonicalRequest, stringToSign, signature, url))
  }

  lemma UrlPrefix(url: string, rest: string)
    requires url == UrlProtocol + rest
    ensures StartsWith(url, UrlProtocol)
  {
    assert url[..|UrlProtocol|] == UrlProtocol;
  }

  /** The URL of a signing, or its rejection. */
  function SignedUrl(signing: Result<Signing, EndpointError>, enc: string -> string): (r: Result<string, EndpointError>)
    requires signing.Ok? ==> var s := signing.value;
      s.url == UrlProtocol + s.host + s.path + "?" + CreateQueryString(Set(s.canonicalParams, SignatureParam, s.signature), enc)
    ensures r.Ok? <==> signing.Ok?
    ensures r.Err? ==> r.error == signing.error
    ensures r.Ok? ==> r.value == signing.value.url && StartsWith(r.value, UrlProtocol)
  {
    match signing
    case Err(e) => Err(e)
    case Ok(s) =>
      UrlPrefix(s.url, s.host + s.path + "?" + CreateQueryString(Set(s.canonicalParams, SignatureParam, s.signature), enc));
      Ok(s.url)
  }

  /** `getSignedURL`: the signed URL, or the rejection of a malformed endpoint. */
  function GetSignedURL(prims: Primitives, signer: Signer, endpoint: string, queryParams: Props, datetime: string): (r: Result<string, EndpointError>)
    ensures r.Err? <==> !StartsWith(endpoint, UrlProtocol) || '?' in endpoint
    ensures r.Ok? ==> StartsWith(r.value, UrlProtocol)
    ensures r.Ok? ==> r.value == Sign(prims, signer, endpoint, queryParams, datetime).value.url
    ensures r.Err? ==> r.error == SplitEndpoint(endpoint).error
  {
    SignedUrl(Sign(prims, signer, endpoint, queryParams, datetime), prims.encodeUriComponent)
  }

  /** What a signed URL carries, stated through the reference key chain: the
      URL's parameters are the canonical ones plus `X-Amz-Signature`, the
      canonical request signs exactly those canonical parameters and the
      URL's host, and the signature is the HMAC of the string to sign under
      the key derived from date, region, service and `aws4_request`. */
  lemma SignatureCoversUrl(prims: Primitives, signer: Signer, endpoint: string, queryParams: Props, datetime: string)
    requires StartsWith(endpoint, UrlProtocol) && '?' !in endpoint
    ensures var s := Sign(prims, signer, endpoint, queryParams, datetime).value;
      var dateString := GetDateString(datetime);
      var urlParams := Set(s.canonicalParams, SignatureParam, s.signature);
      && HostAndPath(s.host, s.path) == SplitEndpoint(endpoint).value
      && Get(urlParams, SignatureParam) == Some(s.signature)
      && (forall n :: n != SignatureParam ==> Get(urlParams, n) == Get(s.canonicalParams, n))
      && s.canonicalParams == CanonicalQueryParams(signer, queryParams, datetime, s.scope)
      && s.scope == CredentialScope(dateString, signer.region, signer.service)
      && s.canonicalRequest == CanonicalRequest(s.path, CreateQueryString(s.canonicalParams, prims.encodeUriComponent),
                                                "host:" + s.host + "\n", prims.sha256(""))
      && s.stringToSign == StringToSign(datetime, s.scope, prims.sha256(s.canonicalRequest))
      && s.signature == prims.toHex(prims.hmac(
           BufferKey(HmacChain(prims, TextKey(KeyPrefix + signer.credentials.secretAccessKey),
                               [dateString, signer.region, signer.service, RequestType])),
           s.stringToSign))
  {
    var s := Sign(prims, signer, endpoint, queryParams, datetime).value;
    HostHeaderString(s.host);
    SignatureKeyIsChain(prims, signer, GetDateString(datetime));
  }

  /** The endpoint a signed URL starts with: the endpoint itself when it has
      a path, and the endpoint followed by `/` when it has none. */
  function EndpointWithPath(endpoint: string): string {
    if |endpoint| >= |UrlProtocol| && '/' in endpoint[|UrlProtocol|..] then endpoint else endpoint + "/"
  }

  lemma EndpointTails(host: string, path: string)
    requires |path| > 0 && path[0] == '/'
    ensures (UrlProtocol + host + path)[|UrlProtocol|..] == host + path
    ensures (UrlProtocol + host)[|UrlProtocol|..] == host
    ensures '/' in host + path
  {
    assert (host + path)[|host|] == '/';
  }

  /** The signed URL is the endpoint, with `/` when it has no path, then `?`
      and the query string of the canonical parameters and the signature. */
  lemma SignedUrlExtendsEndpoint(prims: Primitives, signer: Signer, endpoint: string, queryParams: Props, datetime: string)
    requires StartsWith(endpoint, UrlProtocol) && '?' !in endpoint
    ensures var s := Sign(prims, signer, endpoint, queryParams, datetime).value;
      GetSignedURL(prims, signer, endpoint, queryParams, datetime)
        == Ok(EndpointWithPath(endpoint) + "?"
              + CreateQueryString(Set(s.canonicalParams, SignatureParam, s.signature), prims.encodeUriComponent))
  {
    var hp := SplitEndpoint(endpoint).value;
    EndpointTails(hp.host, hp.path);
    assert EndpointWithPath(endpoint) == UrlProtocol + hp.host + hp.path;
  }

  /** A signed URL begins with its endpoint (with `/` when it has no path) and `?`. */
  lemma SignedUrlStartsWithEndpoint(prims: Primitives, signer: Signer, endpoint: string, queryParams: Props, datetime: string)
    requires StartsWith(endpoint, UrlProtocol) && '?' !in endpoint
    ensures GetSignedURL(prims, signer, endpoint, queryParams, datetime).Ok?
    ensures StartsWith(GetSignedURL(prims, signer, endpoint, queryParams, datetime).value, EndpointWithPath(endpoint) + "?")
  {
    SignedUrlExtendsEndpoint(prims, signer, endpoint, queryParams, datetime);
    var s := Sign(prims, signer, endpoint, queryParams, datetime).value;
    var prefix := EndpointWithPath(endpoint) + "?";
    var query := CreateQueryString(Set(s.canonicalParams, SignatureParam, s.signature), prims.encodeUriComponent);
    assert (prefix + query)[..|prefix|] == prefix;
  }

  /** A caller's parameter that no authentication parameter overrides is signed with the caller's value. */
  lemma CallerParamSigned(signer: Signer, queryParams: Props, datetime: string, scope: string, name: string)
    requires name !in ["X-Amz-Algorithm", "X-Amz-Credential", "X-Amz-Date", "X-Amz-Expires", "X-Amz-SignedHeaders", SecurityTokenParam]
    ensures Get(CanonicalQueryParams(signer, queryParams, datetime, scope), name) == Get(queryParams, name)
  {
    assert Names(AuthParams(signer, datetime, scope))
        == ["X-Amz-Algorithm", "X-Amz-Credential", "X-Amz-Date", "X-Amz-Expires", "X-Amz-SignedHeaders"];
    CanonicalQueryParamsContents(signer, queryParams, datetime, scope, name);
  }

  /** A malformed endpoint is rejected before any primitive is used: the
      rejection is the same whatever hashing, HMAC or encoding is supplied. */
  lemma RejectsBeforeHashing(p1: Primitives, p2: Primitives, signer: Signer, endpoint: string, queryParams: Props, datetime: string)
    requires GetSignedURL(p1, signer, endpoint, queryParams, datetime).Err?
    ensures GetSignedURL(p2, signer, endpoint, queryParams, datetime) == GetSignedURL(p1, signer, endpoint, queryParams, datetime)
  {
  }
}

=== FILE: sorting.dfy ===
/** Sorting of property names as `Array.prototype.sort` does with its default
    comparison, and the fact that the ascending order of a set of names is unique. */
module Sorting {
  import opened Strings

  /** Strictly ascending, hence also free of duplicates. */
  predicate Ascending(s: seq<string>) {
    forall i, j :: 0 <= i < j < |s| ==> Below(s[i], s[j])
  }

  /** `s` and `t` hold the same names. */
  ghost predicate SameElements(s: seq<string>, t: seq<string>) {
    forall y :: y in s <==> y in t
  }

  lemma BelowIsStrictOrder()
    ensures forall a, b, c :: Below(a, b) && Below(b, c) ==> Below(a, c)
    ensures forall a, b :: !(Below(a, b) && Below(b, a))
    ensures forall a, b :: a != b ==> Below(a, b) || Below(b, a)
  {
    forall a, b, c | Below(a, b) && Below(b, c) ensures Below(a, c) {
      BelowTransitive(a, b, c);
    }
    forall a, b ensures !(Below(a, b) && Below(b, a)) {
      BelowAsymmetric(a, b);
    }
    forall a, b | a != b ensures Below(a, b) || Below(b, a) {
      BelowTotal(a, b);
    }
  }

  /** No name occurs twice, as in the result of `Object.keys`. */
  predicate Distinct(s: seq<string>) {
    forall i, j :: 0 <= i < j < |s| ==> s[i] != s[j]
  }

  /** Places `x` into an ascending sequence, leaving it as it is when `x` is already there. */
  function Insert(x: string, s: seq<string>): (r: seq<string>)
    requires Ascending(s)
    ensures Ascending(r)
    ensures forall y :: y in r <==> y == x || y in s
    ensures |r| == if x in s then |s| else |s| + 1
    decreases |s|
  {
    if |s| == 0 then [x]
    else if x == s[0] then s
    else if Below(x, s[0]) then
      BelowIsStrictOrder();
      [x] + s
    else
      BelowIsStrictOrder();
      var rest := Insert(x, s[1..]);
      assert forall y :: y in s[1..] ==> Below(s[0], y);
      assert forall k :: 0 <= k < |rest| ==> Below(s[0], rest[k]);
      [s[0]] + rest
  }

  /** The names of `xs` in ascending order, each once: for names without
      repetition, a rearrangement of all of them. */
  function Sort(xs: seq<string>): (r: seq<string>)
    ensures Ascending(r)
    ensures SameElements(r, xs)
    ensures Distinct(xs) ==> |r| == |xs|
    decreases |xs|
  {
    if |xs| == 0 then []
    else
      var rest := Sort(xs[1..]);
      assert Distinct(xs) ==> xs[0] !in xs[1..] && Distinct(xs[1..]);
      Insert(xs[0], rest)
  }

  /** Two ascending sequences with the same names are the same sequence:
      the order in which names were collected cannot show through a sort. */
  lemma {:induction false} AscendingUnique(a: seq<string>, b: seq<string>)
    requires Ascending(a) && Ascending(b)
    requires SameElements(a, b)
    ensures a == b
    decreases |a|
  {
    if |b| > 0 {
      assert b[0] in a;
    }
    if |a| == 0 {
    } else {
      assert a[0] in b;
      assert b[0] in a;
      var i :| 0 <= i < |a| && a[i] == b[0];
      var j :| 0 <= j < |b| && b[j] == a[0];
      BelowIsStrictOrder();
      if a[0] != b[0] {
        assert false;
      }
      forall y ensures y in a[1..] <==> y in b[1..] {
        if y in a[1..] {
          var k :| 1 <= k < |a| && a[k] == y;
          assert Below(a[0], y);
          BelowIrreflexive(y);
          assert y in b && y != b[0];
          var m :| 0 <= m < |b| && b[m] == y;
          assert m != 0;
          assert y == b[1..][m - 1];
        }
        if y in b[1..] {
          var k :| 1 <= k < |b| && b[k] == y;
          assert Below(b[0], y);
          BelowIrreflexive(y);
          assert y in a && y != a[0];
          var m :| 0 <= m < |a| && a[m] == y;
          assert m != 0;
          assert y == a[1..][m - 1];
        }
      }
      AscendingUnique(a[1..], b[1..]);
      assert a == [a[0]] + a[1..] && b == [b[0]] + b[1..];
    }
  }
}

=== FILE: strings.dfy ===
/** The string primitives the signer relies on: `startsWith`, `includes`,
    `indexOf`, `Array.prototype.join`, `String.prototype.split` on one
    character, and the order `Array.prototype.sort` uses, taken here over Dafny
    characters (code points) rather than UTF-16 code units. */
module Strings {

  /** `s.startsWith(prefix)`. */
  predicate StartsWith(s: string, prefix: string) {
    |prefix| <= |s| && s[..|prefix|] == prefix
  }

  /** `s.indexOf(c, from)`: the first position at or after `from` holding `c`, or -1. */
  function IndexOf(s: string, c: char, from: nat): (r: int)
    ensures r == -1 <==> forall i :: from <= i < |s| ==> s[i] != c
    ensures r != -1 ==> from <= r < |s| && s[r] == c
    ensures r != -1 ==> forall i :: from <= i < r ==> s[i] != c
    decreases |s| - from
  {
    if from >= |s| then -1
    else if s[from] == c then from
    else IndexOf(s, c, from + 1)
  }

  /** `parts.join(sep)`. */
  function Join(parts: seq<string>, sep: string): string
  {
    if |parts| == 0 then ""
    else if |parts| == 1 then parts[0]
    else parts[0] + sep + Join(parts[1..], sep)
  }

  /** `s.split(c)`: the pieces between successive occurrences of `c`. */
  function Split(s: string, c: char): (parts: seq<string>)
    ensures |parts| >= 1
    ensures forall i :: 0 <= i < |parts| ==> c !in parts[i]
    decreases |s|
  {
    var i := IndexOf(s, c, 0);
    if i < 0 then [s] else [s[..i]] + Split(s[i + 1..], c)
  }

  /** Splitting a joined list of pieces, none of which holds the separator,
      gives back exactly those pieces. */
  lemma {:induction false} SplitJoin(parts: seq<string>, c: char)
    requires |parts| >= 1
    requires forall i :: 0 <= i < |parts| ==> c !in parts[i]
    ensures Split(Join(parts, [c]), c) == parts
    decreases |parts|
  {
    var s := Join(parts, [c]);
    if |parts| == 1 {
      assert c !in s;
      assert IndexOf(s, c, 0) == -1;
    } else {
      var rest := Join(parts[1..], [c]);
      assert s == parts[0] + [c] + rest;
      var n := |parts[0]|;
      assert s[n] == c;
      assert forall i :: 0 <= i < n ==> s[i] == parts[0][i];
      assert IndexOf(s, c, 0) == n;
      assert s[..n] == parts[0];
      assert s[n + 1..] == rest;
      SplitJoin(parts[1..], c);
      assert Split(s, c) == [parts[0]] + parts[1..];
    }
  }

  /** Strict order of two strings by successive characters, a proper prefix
      first: the default comparison of `Array.prototype.sort`. */
  predicate Below(a: string, b: string)
    decreases |a|
  {
    if |a| == 0 then |b| > 0
    else if |b| == 0 then false
    else if a[0] == b[0] then Below(a[1..], b[1..])
    else a[0] < b[0]
  }

  lemma {:induction false} BelowIrreflexive(a: string)
    ensures !Below(a, a)
    decreases |a|
  {
    if |a| > 0 {
      BelowIrreflexive(a[1..]);
    }
  }

  lemma {:induction false} BelowAsymmetric(a: string, b: string)
    ensures !(Below(a, b) && Below(b, a))
    decreases |a|
  {
    if |a| > 0 && |b| > 0 && a[0] == b[0] {
      BelowAsymmetric(a[1..], b[1..]);
    }
  }

  lemma {:induction false} BelowTransitive(a: string, b: string, c: string)
    requires Below(a, b) && Below(b, c)
    ensures Below(a, c)
    decreases |a|
  {
    if |a| > 0 && a[0] == b[0] && b[0] == c[0] {
      BelowTransitive(a[1..], b[1..], c[1..]);
    }
  }

  /** Two distinct strings are always ordered one way or the other. */
  lemma {:induction false} BelowTotal(a: string, b: string)
    requires a != b
    ensures Below(a, b) || Below(b, a)
    decreases |a|
  {
    if |a| > 0 && |b| > 0 && a[0] == b[0] {
      assert a == [a[0]] + a[1..] && b == [b[0]] + b[1..];
      BelowTotal(a[1..], b[1..]);
    }
  }
}

=== FILE: validation.dfy ===
/** The two argument checks of the SDK's `utils` module. */
module Validation {
  import opened Wrappers

  /** A configuration value as JavaScript sees it: `null`, `undefined`, or present. */
  datatype Nullable<+T> = Null | Undefined | Present(value: T)

  datatype ValidationError =
    | CannotBeNull(name: string)
    | CannotBeUndefined(name: string)
    | CannotBeEmpty(name: string)
    | ShouldBeNull(name: string)

  /** `value === ''`: only a present string can be empty; `isEmptyString`
      says which present values are the empty string (for non-string values
      it is constantly false). */
  predicate IsNil<T>(value: Nullable<T>, isEmptyString: T -> bool) {
    match value
    case Null => true
    case Undefined => true
    case Present(v) => isEmptyString(v)
  }

  predicate EmptyString(s: string) { s == "" }

  predicate NeverEmpty<T>(x: T) { false }

  /** `validateValueNonNil`: `None` when the value passes, otherwise the error thrown. */
  function ValidateValueNonNil<T>(value: Nullable<T>, name: string, isEmptyString: T -> bool): (r: Option<ValidationError>)
    ensures r.None? <==> !IsNil(value, isEmptyString)
    ensures value.Null? ==> r == Some(CannotBeNull(name))
    ensures value.Undefined? ==> r == Some(CannotBeUndefined(name))
    ensures value.Present? && isEmptyString(value.value) ==> r == Some(CannotBeEmpty(name))
  {
    match value
    case Null => Some(CannotBeNull(name))
    case Undefined => Some(CannotBeUndefined(name))
    case Present(v) => if isEmptyString(v) then Some(CannotBeEmpty(name)) else None
  }

  /** `validateValueNil`: `None` when the value passes, otherwise the error thrown. */
  function ValidateValueNil<T>(value: Nullable<T>, name: string, isEmptyString: T -> bool): (r: Option<ValidationError>)
    ensures r.None? <==> IsNil(value, isEmptyString)
    ensures r.Some? ==> r.value == ShouldBeNull(name)
  {
    if value.Present? && !isEmptyString(value.value) then Some(ShouldBeNull(name)) else None
  }
}

=== FILE: wrappers.dfy ===
/** Failure-carrying wrappers shared by every module of the model. */
module Wrappers {

  /** An optional value: the model's stand-in for JavaScript `undefined`. */
  datatype Option<+T> = None | Some(value: T)

  /** The outcome of an operation that can throw: `Err` carries what was thrown. */
  datatype Result<+T, +E> = Ok(value: T) | Err(error: E)
}
